=== FILE: README.md ===
# AuraCode Studio storefront — a Dafny model of its state layer

AuraCode Studio is a single-page storefront for developer tools and courses. Everything it
stores lives in the browser: products, accounts, orders, saved carts and site settings in an
IndexedDB database (`AuraCodeDB`, version 1), and the cart, the login session and the language
in local storage. This project models the logic of that state layer in Dafny and proves what
it promises:

- **Cart** (`cart.dfy`): entries of (product, quantity) with add, remove, update, clear and
  membership, and totals always recomputed from the entries.
- **Catalog** (`catalog.dfy`, `catalog_view.dfy`): the sample product list and its queries
  (by category, by id, featured, search), and the catalog page's filter with its resets.
- **Database** (`object_store.dfy`, `database.dfy`, `connection.dfy`): five object stores kept
  in primary-key order, their indexes (unique e-mail per user, unique cart per user), the
  generic operations, and the connection that is opened once and remembers the outcome.
- **Seeding** (`seed.dfy`): the default accounts, catalog and settings written into empty
  stores, and the reset that clears everything and seeds again.
- **Accounts** (`auth.dfy`): login, signup, logout, profile update and restoring the session
  on page load.
- **Language** (`i18n.dfy`): English or Arabic, toggled, saved, validated on load, with Arabic
  laid out right to left.

Supporting modules: `wrappers.dfy` (`Option`, `Result`), `text.dfy` (ASCII lower-casing,
substring search, decimal rendering), `seqs.dfy` (`filter` and the subsequence relation),
`keys.dfy` (the ordering of string keys), `records.dfy` (users, orders, saved carts, settings
and the record sum type).

Units and representations: money is in integer cents, ratings in integer tenths of a star (so
the featured threshold 4.7 is 47), times and ids taken from the clock are parameters, and
lower-casing is ASCII only. A table is a sequence of records in strictly increasing key order,
which is the order IndexedDB's `getAll` returns; `Database.Valid` (keys ordered, unique
indexes respected) is proved to be kept by every write, and every operation on the database
takes it as a precondition.

Three behaviours of the program that are easy to misread:

- IndexedDB's `getAll` returns records in primary-key order, not in the order they were
  added, so `login`'s first matching user is the first in key order.
- `update` uses `put`, which can fail: a write that gives a unique index (user e-mail, cart
  user id) a second record with the same value is rejected with a constraint error.
  `Auth.UpdateProfile` models that error path.
- The settings' free-shipping threshold is 100 dollars, kept as 10000 cents.

## Model

| member | source | states |
|---|---|---|
| Cart.CalculateTotals | src/contexts/CartContext.tsx:14-18 | the loop computes the total as the sum of price×quantity and the item count as the sum of quantities over all entries |
| Cart.TotalsConcat | src/contexts/CartContext.tsx:14-18 | totals are additive over concatenation, so they are a function of the entries alone |
| Cart.IsInCart | src/contexts/CartContext.tsx:84-86 | true exactly when some entry carries the product id |
| Cart.MapQuantity | src/contexts/CartContext.tsx:50-54 | the mapped cart has the same length and products; only entries with the id get the new quantity |
| Cart.AddToCart | src/contexts/CartContext.tsx:45-59 | after adding, the product is in the cart |
| Cart.AddToCartExisting | src/contexts/CartContext.tsx:47-55 | with a product already present, its single entry's quantity grows by the added amount and every other entry and the length are unchanged |
| Cart.AddToCartNew | src/contexts/CartContext.tsx:45-57 | with a product not present, one entry is appended at the end and the rest is kept; the default quantity is 1 |
| Cart.AddToCartPreservesUniqueIds | src/contexts/CartContext.tsx:47-57 | adding keeps at most one entry per product id |
| Cart.AddToCartQuantity | src/contexts/CartContext.tsx:45-58 | the product's quantity in the cart grows by the added amount; every other product's quantity is unchanged |
| Cart.AddToCartTotalsExisting | src/contexts/CartContext.tsx:49-55 | adding to an existing entry raises the count by the quantity and the total by price×quantity |
| Cart.AddToCartTotalsNew | src/contexts/CartContext.tsx:57 | appending a new entry raises the count by the quantity and the total by price×quantity |
| Cart.RemoveFromCart | src/contexts/CartContext.tsx:61-63 | the result keeps exactly the entries with other ids, each as often as before, in order, and the id is no longer in the cart |
| Cart.RemoveFromCartPresent | src/contexts/CartContext.tsx:61-63 | in a cart with unique ids, removing an entry's id drops exactly that position |
| Cart.RemoveFromCartAbsent | src/contexts/CartContext.tsx:61-63 | removing an id that is not present leaves the cart unchanged |
| Cart.RemoveFromCartTotals | src/contexts/CartContext.tsx:61-63 | removal keeps ids unique and lowers the totals by the removed entry alone |
| Cart.UpdateNonPositiveIsRemove | src/contexts/CartContext.tsx:65-69 | updating to a quantity ≤ 0 is exactly removing the id |
| Cart.UpdateQuantityPresent | src/contexts/CartContext.tsx:71-77 | a positive update replaces only the matching entry's quantity |
| Cart.UpdateQuantityAbsent | src/contexts/CartContext.tsx:65-77 | updating an id that is not present leaves the cart unchanged |
| Cart.UpdateQuantity | src/contexts/CartContext.tsx:65-78 | a quantity ≤ 0 removes every entry of the id; any other quantity keeps every entry and product in place and sets the quantity of exactly the entries with the id |
| Cart.ClearCart | src/contexts/CartContext.tsx:80-82 | after clearing the cart is empty, both totals are zero and no id is in it |
| Cart.AddTwiceScenario | src/contexts/CartContext.tsx:45-59 | adding a $10 product with quantity 2 and then 3 gives one entry of 5, total $50, count 5 |
| Catalog.ByCategory | src/data/products.ts:311-314 | "all" returns the whole list; any other category returns exactly its products, each as often as in the list, as an order-preserving subsequence |
| Catalog.FindById | src/data/products.ts:316-318 | none exactly when no product has the id; otherwise the first product carrying it |
| Catalog.SliceEnd | src/data/products.ts:323 | the end index of `slice(0, end)`: clamped to the length, counted from the end when negative |
| Catalog.Featured | src/data/products.ts:320-324 | a prefix of the products rated ≥ 4.7 with a truthy original price, as long as `slice(0, limit)` makes it: `limit` of them at most for a non-negative limit, all but the last `-limit` for a negative one; a subsequence of the catalog |
| Catalog.Search | src/data/products.ts:326-334 | exactly the products whose lower-cased name, description or some tag contains the lower-cased query, each as often as in the list, in list order |
| Catalog.SearchEmptyReturnsAll | src/data/products.ts:326-334 | the empty query returns the whole list |
| Catalog.SampleProducts | src/data/products.ts:3-308 | fourteen products, in the order and with the ids of the catalog, each stamped with its fixed creation and update date |
| Catalog.SampleProductsAgreeWithBase | src/data/products.ts:3-308 | each sample product equals the catalog entry at the same position in every field except the two dates, which are its fixed date |
| Catalog.GetProductsByCategory | src/data/products.ts:311-314 | on the sample catalog: all of it for "all", otherwise exactly its products in the category, in catalog order |
| Catalog.GetProductById | src/data/products.ts:316-318 | a sample product carrying the id, and nothing exactly when no sample product has it |
| Catalog.GetFeaturedProducts | src/data/products.ts:320-324 | the prefix that `slice(0, limit)` keeps of the featured sample products (rated ≥ 4.7, truthy original price): for a non-negative limit exactly `limit` of them, or all when fewer are featured; by default four, in catalog order |
| Catalog.DefaultFeaturedProducts | src/data/products.ts:320-324 | with the default limit the featured products are `prod-1`, `prod-2`, `prod-3` and `prod-7`, in that order |
| Catalog.DefaultFeaturedOf | src/data/products.ts:320-324 | with the default limit, products flagged featured, featured, featured, not, not, not, featured give the first three and the seventh, so the catalog's ids give `prod-1`, `prod-2`, `prod-3`, `prod-7` |
| Catalog.FeaturedStartsWith | src/data/products.ts:320-324 | the featured filter of such a list starts with the products at positions 0, 1, 2 and 6 |
| Catalog.SearchProducts | src/data/products.ts:326-334 | exactly the sample products matching the query ignoring case, in catalog order |
| Catalog.CatalogIdsDistinct | src/data/products.ts:3-308 | the sample products' ids are pairwise distinct |
| Catalog.BaseCatalogIds | src/data/products.ts:3-308 | the sample products are `prod-1` to `prod-14` in order |
| Catalog.CatalogDiscountsBelowOriginal | src/db/seed.ts:38-260 | every catalog product with an original price sells below it |
| CatalogView.FilteredProducts | src/sections/ProductCatalog.tsx:50-57 | a product is shown exactly when its category matches (or "all") and the query is empty or matches name, description or a tag ignoring case; the list is an order-preserving subsequence; each shown product appears as often as in the loaded list |
| CatalogView.UnfilteredShowsAll | src/sections/ProductCatalog.tsx:21-22 | with the initial filters every loaded product is shown |
| CatalogView.ClearFiltersShowsAll | src/sections/ProductCatalog.tsx:176-179 | clearing resets to "all" and the empty query, which shows every product |
| CatalogView.SelectCategoryMatchesCatalogQuery | src/sections/ProductCatalog.tsx:141-144 | choosing a category empties the query, and the page then shows what the category query returns |
| CatalogView.SearchAllMatchesCatalogQuery | src/sections/ProductCatalog.tsx:50-57 | typing a query while "all" is active shows exactly what the catalog's search returns, empty query included |
| CatalogView.SelectCategory | src/sections/ProductCatalog.tsx:141-144 | the chosen category becomes active and the search box is emptied, so the search half of the filter lets every product through |
| CatalogView.ClearFilters | src/sections/ProductCatalog.tsx:176-179 | after clearing, every product passes the filter |
| ObjectStore.Insert | src/db/database.ts:96-103 | inserting under a new key keeps the table in key order, one record longer, with exactly the old records and the new one |
| ObjectStore.Remove | src/db/database.ts:114-121 | deleting keeps the order and exactly the records under other keys |
| ObjectStore.GetAfterPut | src/db/database.ts:105-112 | after a put the key maps to the new record and every other key is unchanged, whether or not the key existed |
| ObjectStore.OrderedSubsequence | src/db/database.ts:78-85 | any subsequence of a key-ordered table is key-ordered |
| Database.UniquePaths | src/db/database.ts:30-63 | the unique key paths are exactly those of the indexes created unique |
| Database.Indexes | src/db/database.ts:30-62 | each store has at most two indexes, with distinct names, each named after its key path; the settings store has none |
| Database.FindIndex | src/db/database.ts:123-125 | finds the index of that name, or none exactly when the store has no such index |
| Database.GetAll | src/db/database.ts:78-85 | the records come back in key order, each found under its own key |
| Database.GetById | src/db/database.ts:87-94 | the record under the id, or none exactly when no record has it; a missing id is not an error |
| Database.Add | src/db/database.ts:96-103 | fails with a constraint error exactly when the key is taken or a unique index already holds one of the values; success keeps the database valid |
| Database.Update | src/db/database.ts:105-112 | fails with a constraint error exactly when another record holds one of the unique values; success keeps the database valid |
| Database.Delete | src/db/database.ts:114-121 | afterwards the id resolves to nothing and the database is valid |
| Database.GetByIndex | src/db/database.ts:123-131 | a not-found error exactly when the store has no index of that name; otherwise exactly the records whose value at the index's key path equals the value, in key order |
| Database.Clear | src/db/database.ts:134-141 | the store becomes empty and the other stores are unchanged |
| Database.ClearThenEmpty | src/db/database.ts:134-141 | after a clear the store reports itself empty: no id resolves to a record in it |
| Database.IsEmpty | src/db/database.ts:144-147 | true exactly when no id resolves in the store |
| Database.AddThenGet | src/db/database.ts:96-103 | after a successful add the new key resolves to the record and nothing else changes |
| Database.AddThenGetAll | src/db/database.ts:96-103 | after a successful add the store holds exactly its old records and the new one; other stores are unchanged |
| Database.UpdateThenGet | src/db/database.ts:105-112 | after a successful update the key resolves to the new record (insert or replace) and nothing else changes |
| Database.DeleteThenGet | src/db/database.ts:114-121 | after a delete the id resolves to nothing and every other key of every store is unchanged |
| Database.DeleteIdempotent | src/db/database.ts:114-121 | deleting an absent id changes nothing, so a repeated delete changes nothing |
| Database.AddDuplicateFails | src/db/database.ts:43 | adding under an existing key, or a user with another user's e-mail, fails with a constraint error |
| Database.UniqueIndexAtMostOne | src/db/database.ts:41-58 | a unique index yields at most one record per value |
| Database.EmptyStoreValid | src/db/database.ts:30-63 | the freshly created database satisfies the invariant |
| Connection.Init | src/db/database.ts:18-21 | the first call opens (succeeding exactly when the open does); later calls return the remembered outcome |
| Connection.Execute | src/db/database.ts:78-147 | each request performs its store operation on its one store: reads return what `getAll`, `getById`, `getByIndex` and `isEmpty` give and write nothing; add and update succeed exactly when the store accepts the record, write as the store does and resolve to the record; a failure writes nothing; delete and clear are the store's delete and clear, so the other stores are untouched |
| Connection.Call | src/db/database.ts:70-75 | every request first waits on `init`; if the open failed, the request fails with nothing written; once the database is open, whether already or by this very request, the request does what the store operation does |
| Connection.InitIdempotent | src/db/database.ts:18-19 | a second `init` returns the remembered outcome, whatever a new open attempt would do |
| Connection.FailureIsSticky | src/db/database.ts:18-21 | once the open has failed, every later request fails with the open error and writes nothing |
| Connection.CallWhenOpen | src/db/database.ts:70-75 | whenever `init` leaves the database open, including the request that opens it, the request does exactly what the store operation does; on an already open database a further open attempt changes nothing |
| Connection.AddThenGetById | src/db/database.ts:87-103 | after an add request succeeds, a `getById` request finds the record under its key and what it found before under any other key |
| Seed.AddAllFresh | src/db/seed.ts:317-339 | records with fresh, mutually compatible keys are all added without error; the store then holds exactly its old records and these |
| Seed.SeedStoreFacts | src/db/seed.ts:317-339 | seeding one store never fails; an empty store ends up holding exactly the defaults, a non-empty one is untouched |
| Seed.SeedStore | src/db/seed.ts:317-339 | a store that already holds records is left exactly as it was, without error |
| Seed.SeedWith | src/db/seed.ts:313-342 | users, then products, then settings; the database stays valid (the contents are stated by the two lemmas below) |
| Seed.SeedWithFacts | src/db/seed.ts:313-342 | seeding fills each empty users, products or settings store with exactly its defaults, without error |
| Seed.SeedWithUntouched | src/db/seed.ts:313-342 | a store that held records, and the orders and cart stores, are left exactly as they were |
| Seed.SeedWithIdempotent | src/db/seed.ts:313-342 | seeding twice gives the same database as seeding once |
| Seed.SeedDatabase | src/db/seed.ts:313-342 | seeding an open database with the defaults never fails and keeps it valid |
| Seed.ResetDatabase | src/db/seed.ts:345-352 | clearing everything and seeding never fails and keeps the database valid |
| Seed.DefaultUsersCompatible | src/db/seed.ts:5-35 | the three default accounts have distinct ids and distinct e-mails |
| Seed.InitialProductIds | src/db/seed.ts:38-260 | seeding writes fourteen products keyed `prod-1` to `prod-14` |
| Seed.InitialProductsCompatible | src/db/seed.ts:38-260 | the seeded products have pairwise distinct ids |
| Seed.SeedDatabaseSucceedsOnce | src/db/seed.ts:313-342 | `seedDatabase` never fails on an open database, and running it again changes nothing |
| Seed.ResetIgnoresPriorState | src/db/seed.ts:345-352 | the outcome of a reset is the seeding of a brand-new database, whatever was stored before |
| Seed.ResetContents | src/db/seed.ts:345-352 | after a reset: the three default users, the whole catalog, the one settings record, and no orders or saved carts |
| Seed.ResetAlwaysSame | src/db/seed.ts:345-352 | within one page load every reset writes the same database, equal to the first seeding of an empty database |
| Auth.FindByEmail | src/contexts/AuthContext.tsx:63 | the first user whose e-mail matches ignoring case; none exactly when no user matches |
| Auth.Login | src/contexts/AuthContext.tsx:60-77 | succeeds exactly when the first case-insensitive e-mail match has the identical password, and then signs in and saves the session of that first match; any failure is invalid credentials and changes nothing |
| Auth.NewUser | src/contexts/AuthContext.tsx:88-96 | the new account is a customer with the lower-cased e-mail, no avatar, and id `user-` followed by the clock's milliseconds |
| Auth.Signup | src/contexts/AuthContext.tsx:79-103 | refuses an e-mail registered in any letter case; for an unregistered one it succeeds exactly when the store accepts the new user, which it then holds, signed in; a refused add is a constraint error; an error changes nothing |
| Auth.SignupRefusedOnlyForTakenId | src/contexts/AuthContext.tsx:79-100 | for an unregistered e-mail the add is refused exactly when the key `user-<millis>` is already taken; the unique e-mail index cannot object |
| Auth.Logout | src/contexts/AuthContext.tsx:105-108 | always leaves no session, nobody signed in, and nothing loading |
| Auth.ApplyPatch | src/contexts/AuthContext.tsx:113 | each field the update sets replaces the user's, every other field is kept |
| Auth.UpdateProfile | src/contexts/AuthContext.tsx:110-116 | no-op when signed out; signed in, it succeeds exactly when the store accepts the merged user, then writes it and shows it keeping the other flags; a rejected write is a constraint error and changes nothing |
| Auth.LoadSession | src/contexts/AuthContext.tsx:26-41 | signed in exactly when a saved id resolves to a user, as that user; otherwise signed out; loading ends either way |
| Auth.LoadSessionOnConnection | src/contexts/AuthContext.tsx:26-41 | run through the connection: an absent or undestructurable session opens nothing and signs the user out; any other session attempts the open, and a failed open or an unusable id signs the user out with loading ended, while an open database gives what `Auth.LoadSession` gives |
| Auth.SignupThenLogin | src/contexts/AuthContext.tsx:60-103 | after a signup, logging in with the e-mail in any letter case and the same password succeeds as the new user |
| Auth.LoginThenReload | src/contexts/AuthContext.tsx:26-77 | reloading after a login restores the same signed-in state |
| Auth.SignupThenReload | src/contexts/AuthContext.tsx:26-103 | reloading after a signup restores the new account's session |
| Auth.LogoutThenReload | src/contexts/AuthContext.tsx:105-108 | reloading after a logout finds nobody signed in |
| Auth.UpdateProfileThenReload | src/contexts/AuthContext.tsx:110-116 | after an update that keeps the id, a reload shows the updated user |
| I18n.Parse | src/i18n/I18nContext.tsx:22 | a saved value is accepted exactly when it is `en` or `ar` |
| I18n.Load | src/i18n/I18nContext.tsx:17-25 | English unless the slot holds a valid code, which is then adopted |
| I18n.SetLanguage | src/i18n/I18nContext.tsx:41-44 | the language becomes the chosen one and its code is saved |
| I18n.ToggleLanguage | src/i18n/I18nContext.tsx:46-49 | switches to the other language and saves it |
| I18n.DocumentFor | src/i18n/I18nContext.tsx:28-39 | the document is right to left with the `rtl` class exactly for Arabic (the `IsRTL` helper), and its `lang` is the language's code |
| I18n.ToggleTwice | src/i18n/I18nContext.tsx:46-49 | toggling twice restores the language |
| I18n.ToggleFlipsDirection | src/i18n/I18nContext.tsx:52 | each toggle flips the right-to-left flag |
| I18n.ReloadRestores | src/i18n/I18nContext.tsx:17-44 | a reload after choosing a language comes back in it |

## Left out

- Product descriptions and feature lists: the catalog data keeps every id, name, price,
  original price, category, tag, stock and rating, but the long free-text `description` and
  `features` are empty strings and lists. Search over descriptions is modelled and proved in
  general; only the concrete text is missing.
- Site settings: the nested social links, SEO, hero and footer content are not modelled; the
  flat fields are.
- Orders: `shippingAddress` and `paymentMethod` are not modelled (nothing in this core reads
  them).
- Cart persistence: loading the cart from local storage and saving it on every change are
  JSON I/O, not modelled; the cart is a value.
- Session and language storage: local storage is a value (`Auth.Session`, `I18n.Prefs`);
  JSON parsing is reduced to "absent, not destructurable, without a usable user id, or holding
  a user id".
- Readiness polling and the 3-second fallback before `loadSession`: timers, not modelled;
  `Auth.LoadSessionOnConnection` is the step they run, once the database is seen open and
  again at the fallback, open or not (the interval's `clearInterval` does not cancel it).
- Asynchrony, transactions and React state batching: each operation is one atomic step.
- `Auth.Login`, `Auth.Signup`, `Auth.UpdateProfile`, `Seed.SeedDatabase`: work on an open
  database; a failed open is covered once by `Connection.Call`, and there they reject with
  the open error (only the session load catches it, in `Auth.LoadSessionOnConnection`).
- `Auth.FindByEmail`: looks only at user records; the users store never holds anything else.
- Unicode lower-casing: only ASCII letters are folded.
- Floating-point money and ratings: integers in cents and tenths instead.
- The clock: `Date.now()` and `toISOString()` values are parameters.
- `Seed.SeedDatabase`: the default records are module-level values stamped when the page loads
  the seed module, each initialiser reading the clock on its own; the model stamps all of them
  with one value `now`, passed to seeding and reset alike, so stamps that would differ by a
  millisecond between records are not modelled.
- `Seed.SeedWith`: its own contract states only validity and is weaker than what it does; what
  it writes and leaves alone is stated by `Seed.SeedWithFacts` and `Seed.SeedWithUntouched`.
- Key order: keys compare by Unicode code point, where IndexedDB compares UTF-16 code units;
  the two orders differ only between characters beyond U+FFFF and those from U+E000 to U+FFFF.
- Password hashing: there is none; passwords are compared for equality.
- The `categories` list and the translation tables: static UI data, not part of this model.
- The `types` module of the source is not part of this model; the record types are written
  out in `records.dfy` from the fields the code uses.

=== FILE: auth.dfy ===
/** Accounts and the browser session: log in, sign up, log out, edit the profile, and restore
    the session when the page loads. */
module Auth {
  import opened Wrappers
  import opened Text
  import opened Records
  import Database
  import Connection
  import ObjectStore

  /** What the interface knows about the signed-in user. */
  datatype AuthState = AuthState(user: Option<User>, isAuthenticated: bool, isLoading: bool)

  /** Nobody signed in, and nothing left to load. */
  const SignedOut: AuthState := AuthState(None, false, false)

  /** The slot's content, as `loadSession` reads it: nothing (or an empty string); text that
      cannot be destructured (not JSON, or `null`); a value that destructures but whose
      `userId` is no usable string key (`{}`, `"x"`, a number); or the id of a user. */
  datatype Session = NoSession | Malformed | NoUsableId | Saved(userId: string)

  /** The browser side: the state shown and the session slot. */
  datatype Client = Client(state: AuthState, session: Session)

  datatype AuthError = InvalidCredentials | EmailAlreadyRegistered | StoreError(error: Database.DbError)

  /** `user.email.toLowerCase() === email.toLowerCase()`. */
  predicate EmailMatches(u: User, email: string)
  {
    Lower(u.email) == Lower(email)
  }

  predicate IsUserWithEmail(x: Record, email: string)
  {
    x.UserRecord? && EmailMatches(x.user, email)
  }

  /** `users.find(...)`: the first user, in the order given, whose e-mail matches ignoring case. */
  function FindByEmail(rs: seq<Record>, email: string): (r: Option<User>)
    ensures r.Some? ==> UserRecord(r.value) in rs && EmailMatches(r.value, email)
    ensures r.None? <==> forall x :: x in rs ==> !IsUserWithEmail(x, email)
    ensures r.Some? ==> exists k :: (0 <= k < |rs| && rs[k] == UserRecord(r.value) &&
      forall j :: 0 <= j < k ==> !IsUserWithEmail(rs[j], email))
  {
    if |rs| == 0 then None
    else if IsUserWithEmail(rs[0], email) then Some(rs[0].user)
    else
      var r := FindByEmail(rs[1..], email);
      assert forall x :: x in rs <==> x == rs[0] || x in rs[1..] by { assert rs == [rs[0]] + rs[1..]; }
      if r.Some? then
        var k :| 0 <= k < |rs[1..]| && rs[1..][k] == UserRecord(r.value) &&
          forall j :: 0 <= j < k ==> !IsUserWithEmail(rs[1..][j], email);
        assert rs[k + 1] == UserRecord(r.value);
        assert forall j :: 0 <= j < k + 1 ==> !IsUserWithEmail(rs[j], email) by {
          forall j | 0 <= j < k + 1 ensures !IsUserWithEmail(rs[j], email) {
            if j > 0 { assert rs[j] == rs[1..][j - 1]; }
          }
        }
        r
      else r
  }

  /** The state after a successful login or signup. */
  function SignedIn(u: User): (s: AuthState)
    ensures s.isAuthenticated && !s.isLoading && s.user == Some(u)
  {
    AuthState(Some(u), true, false)
  }

  /** `login`: reads every user, takes the first whose e-mail matches ignoring case, and
      accepts only an exact password; success saves the session. A failure changes nothing. */
  function Login(db: Database.Store, c: Client, email: string, password: string): (r: (Client, Option<AuthError>))
    requires Database.Valid(db)
    ensures r.1.None? <==> (var u := FindByEmail(Database.GetAll(db, Database.Users), email);
                            u.Some? && u.value.password == password)
    ensures r.1.Some? ==> r == (c, Some(InvalidCredentials))
    ensures r.1.None? ==> (var u := FindByEmail(Database.GetAll(db, Database.Users), email);
      u.Some? && r.0 == Client(SignedIn(u.value), Saved(u.value.id)))
  {
    match FindByEmail(Database.GetAll(db, Database.Users), email)
    case None => (c, Some(InvalidCredentials))
    case Some(u) =>
      if u.password != password then (c, Some(InvalidCredentials))
      else (Client(SignedIn(u), Saved(u.id)), None)
  }

  /** The account `signup` creates: a customer keyed by the clock's milliseconds, e-mail stored
      lower-cased, no avatar. */
  function NewUser(email: string, password: string, name: string, nowMillis: nat, now: string): (u: User)
    ensures u.role == Customer && u.avatar.None? && u.email == Lower(email)
    ensures u.password == password && u.name == name && u.createdAt == now
    ensures u.id == "user-" + NatToString(nowMillis)
  {
    User("user-" + NatToString(nowMillis), Lower(email), password, name, Customer, None, now)
  }

  /** `signup`: refuses an e-mail already registered (ignoring case); otherwise adds the new
      customer and signs them in. An add the store rejects (a key taken in the same
      millisecond) is an error too, and an error changes nothing. */
  function Signup(db: Database.Store, c: Client, email: string, password: string, name: string,
                  nowMillis: nat, now: string): (r: (Database.Store, Client, Option<AuthError>))
    requires Database.Valid(db)
    ensures Database.Valid(r.0)
    ensures FindByEmail(Database.GetAll(db, Database.Users), email).Some? ==>
      r == (db, c, Some(EmailAlreadyRegistered))
    ensures r.2.Some? ==> r.0 == db && r.1 == c
    ensures FindByEmail(Database.GetAll(db, Database.Users), email).None? ==>
      (r.2.None? <==> Database.Add(db, Database.Users, UserRecord(NewUser(email, password, name, nowMillis, now))).Success?)
    ensures FindByEmail(Database.GetAll(db, Database.Users), email).None? && r.2.Some? ==>
      r.2 == Some(StoreError(Database.ConstraintError))
    ensures r.2.None? ==>
      var u := NewUser(email, password, name, nowMillis, now);
      FindByEmail(Database.GetAll(db, Database.Users), email).None? &&
      Database.Add(db, Database.Users, UserRecord(u)) == Success(r.0) &&
      r.1 == Client(SignedIn(u), Saved(u.id))
  {
    if FindByEmail(Database.GetAll(db, Database.Users), email).Some? then (db, c, Some(EmailAlreadyRegistered))
    else
      var u := NewUser(email, password, name, nowMillis, now);
      match Database.Add(db, Database.Users, UserRecord(u))
      case Failure(e) => (db, c, Some(StoreError(e)))
      case Success(db') => (db', Client(SignedIn(u), Saved(u.id)), None)
  }

  /** `logout`: forgets the session; the store is not involved. */
  function Logout(c: Client): (r: Client)
    ensures r.state.user.None? && !r.state.isAuthenticated && !r.state.isLoading
    ensures r.session.NoSession?
  {
    Client(SignedOut, NoSession)
  }

  /** The fields a profile update may set; every field of a user may appear. */
  datatype UserPatch = UserPatch(
    id: Option<string>,
    email: Option<string>,
    password: Option<string>,
    name: Option<string>,
    role: Option<Role>,
    avatar: Option<Option<string>>,
    createdAt: Option<string>)

  /** `{ ...user, ...updates }`: each field the patch sets replaces the user's. */
  function ApplyPatch(u: User, p: UserPatch): (r: User)
    ensures r.id == (if p.id.Some? then p.id.value else u.id)
    ensures r.email == (if p.email.Some? then p.email.value else u.email)
    ensures r.password == (if p.password.Some? then p.password.value else u.password)
    ensures r.name == (if p.name.Some? then p.name.value else u.name)
    ensures r.role == (if p.role.Some? then p.role.value else u.role)
    ensures r.avatar == (if p.avatar.Some? then p.avatar.value else u.avatar)
    ensures r.createdAt == (if p.createdAt.Some? then p.createdAt.value else u.createdAt)
  {
    User(
      if p.id.Some? then p.id.value else u.id,
      if p.email.Some? then p.email.value else u.email,
      if p.password.Some? then p.password.value else u.password,
      if p.name.Some? then p.name.value else u.name,
      if p.role.Some? then p.role.value else u.role,
      if p.avatar.Some? then p.avatar.value else u.avatar,
      if p.createdAt.Some? then p.createdAt.value else u.createdAt)
  }

  /** `updateProfile`: nothing when signed out; otherwise writes the patched user with `put`
      and shows it, leaving the other flags and the session as they were. A write the store
      rejects (an e-mail another account holds) changes nothing. */
  function UpdateProfile(db: Database.Store, c: Client, p: UserPatch): (r: (Database.Store, Client, Option<AuthError>))
    requires Database.Valid(db)
    ensures Database.Valid(r.0)
    ensures c.state.user.None? ==> r == (db, c, None)
    ensures r.2.Some? ==> r.0 == db && r.1 == c
    ensures c.state.user.Some? ==>
      (r.2.None? <==> Database.Update(db, Database.Users, UserRecord(ApplyPatch(c.state.user.value, p))).Success?)
    ensures r.2.Some? ==> r.2 == Some(StoreError(Database.ConstraintError))
    ensures c.state.user.Some? && r.2.None? ==>
      var u := ApplyPatch(c.state.user.value, p);
      Database.Update(db, Database.Users, UserRecord(u)) == Success(r.0) &&
      r.1 == c.(state := c.state.(user := Some(u)))
  {
    match c.state.user
    case None => (db, c, None)
    case Some(current) =>
      var u := ApplyPatch(current, p);
      match Database.Update(db, Database.Users, UserRecord(u))
      case Failure(e) => (db, c, Some(StoreError(e)))
      case Success(db') => (db', c.(state := c.state.(user := Some(u))), None)
  }

  /** `loadSession`: a saved id that resolves to a user signs that user in; no session, one that
      does not parse, or an id with no user leaves everyone signed out. Loading ends either way. */
  function LoadSession(db: Database.Store, session: Session): (r: AuthState)
    requires Database.Valid(db)
    ensures !r.isLoading
    ensures r.isAuthenticated <==> r.user.Some?
    ensures r.user.Some? ==> session.Saved? && Database.GetById(db, Database.Users, session.userId) == Some(UserRecord(r.user.value))
    ensures (session.Saved? && Database.GetById(db, Database.Users, session.userId).Some? &&
             Database.GetById(db, Database.Users, session.userId).value.UserRecord?) ==>
      r.user == Some(Database.GetById(db, Database.Users, session.userId).value.user)
  {
    match session
    case Saved(id) =>
      (match Database.GetById(db, Database.Users, id)
       case Some(UserRecord(u)) => SignedIn(u)
       case _ => SignedOut)
    case _ => SignedOut
  }

  /** `loadSession` as the page runs it, through the shared connection: once the database is
      seen open, and again at the three-second fallback, open or not. Every session that
      destructures reaches `getById`, which first waits on `init`: when the open has failed it
      rejects, the `catch` swallows the error and the user is signed out with loading ended; a
      `userId` that is no usable key is rejected or found missing, with the same outcome. */
  function LoadSessionOnConnection(c: Connection.Conn, opens: bool, session: Session): (r: (Connection.Conn, AuthState))
    requires Database.Valid(c.data)
    ensures r.0.data == c.data
    ensures !r.1.isLoading
    ensures session.NoSession? || session.Malformed? ==> r == (c, SignedOut)
    ensures session.Saved? || session.NoUsableId? ==> r.0 == Connection.Init(c, opens)
    ensures session.NoUsableId? ==> r.1 == SignedOut
    ensures session.Saved? && !Connection.Init(c, opens).init.Opened? ==> r.1 == SignedOut
    ensures Connection.Init(c, opens).init.Opened? ==> r.1 == LoadSession(c.data, session)
  {
    match session
    case Saved(id) =>
      var (c', res) := Connection.Call(c, opens, Connection.GetById(Database.Users, id));
      var state :=
        if res.Success? && res.value.Found? && res.value.found.Some? && res.value.found.value.UserRecord?
        then SignedIn(res.value.found.value.user)
        else SignedOut;
      (c', state)
    case NoUsableId => (Connection.Init(c, opens), SignedOut)
    case _ => (c, SignedOut)
  }

  // ---------------------------------------------------------------------------
  // How the operations fit together.
  // ---------------------------------------------------------------------------

  /** A new account can log in straight away, with its e-mail in any letter case. */
  lemma SignupThenLogin(db: Database.Store, c: Client, email: string, password: string, name: string,
                        nowMillis: nat, now: string, c': Client, typed: string)
    requires Database.Valid(db)
    requires Signup(db, c, email, password, name, nowMillis, now).2.None?
    requires Lower(typed) == Lower(email)
    ensures var db' := Signup(db, c, email, password, name, nowMillis, now).0;
      Login(db', c', typed, password) ==
        (Client(SignedIn(NewUser(email, password, name, nowMillis, now)), Saved("user-" + NatToString(nowMillis))), None)
  {
    var u := NewUser(email, password, name, nowMillis, now);
    var db' := Signup(db, c, email, password, name, nowMillis, now).0;
    Database.AddThenGetAll(db, Database.Users, UserRecord(u));
    LowerIdempotent(email);
    assert EmailMatches(u, typed);
    var found := FindByEmail(Database.GetAll(db', Database.Users), typed);
    assert UserRecord(u) in Database.GetAll(db', Database.Users);
    assert found.Some?;
    if found.value != u {
      assert UserRecord(found.value) in Database.GetAll(db, Database.Users);
      assert IsUserWithEmail(UserRecord(found.value), email);
    }
  }

  /** Reloading the page after a login restores the same signed-in state. */
  lemma LoginThenReload(db: Database.Store, c: Client, email: string, password: string)
    requires Database.Valid(db) && Login(db, c, email, password).1.None?
    ensures LoadSession(db, Login(db, c, email, password).0.session) == Login(db, c, email, password).0.state
  {
    var u := FindByEmail(Database.GetAll(db, Database.Users), email).value;
    assert UserRecord(u) in Database.GetAll(db, Database.Users);
    var found := Database.GetById(db, Database.Users, u.id);
    assert found == Some(UserRecord(u));
  }

  /** Reloading after a signup restores the new account's session. */
  lemma SignupThenReload(db: Database.Store, c: Client, email: string, password: string, name: string,
                         nowMillis: nat, now: string)
    requires Database.Valid(db) && Signup(db, c, email, password, name, nowMillis, now).2.None?
    ensures var r := Signup(db, c, email, password, name, nowMillis, now);
      LoadSession(r.0, r.1.session) == r.1.state
  {
    var u := NewUser(email, password, name, nowMillis, now);
    Database.AddThenGet(db, Database.Users, UserRecord(u), Database.Users, u.id);
  }

  /** After logging out, a reload finds nobody signed in. */
  lemma LogoutThenReload(db: Database.Store, c: Client)
    requires Database.Valid(db)
    ensures LoadSession(db, Logout(c).session) == Logout(c).state
  {
  }

  /** A profile update that keeps the id is what a reload then shows. */
  lemma UpdateProfileThenReload(db: Database.Store, c: Client, p: UserPatch)
    requires Database.Valid(db) && p.id.None?
    requires c.state.user.Some? && c.session == Saved(c.state.user.value.id)
    requires UpdateProfile(db, c, p).2.None?
    ensures var r := UpdateProfile(db, c, p);
      LoadSession(r.0, r.1.session).user == r.1.state.user
  {
    var u := ApplyPatch(c.state.user.value, p);
    Database.UpdateThenGet(db, Database.Users, UserRecord(u), Database.Users, u.id);
  }

  /** For an e-mail nobody has registered, the store refuses the new account only when the key
      `user-<millis>` is already taken: the stored e-mail is the lower-cased one, so a clash on
      the unique e-mail index would be an existing user with a matching e-mail. */
  lemma SignupRefusedOnlyForTakenId(db: Database.Store, c: Client, email: string, password: string,
                                    name: string, nowMillis: nat, now: string)
    requires Database.Valid(db)
    requires FindByEmail(Database.GetAll(db, Database.Users), email).None?
    ensures Signup(db, c, email, password, name, nowMillis, now).2.Some? <==>
      Database.GetById(db, Database.Users, "user-" + NatToString(nowMillis)).Some?
  {
    var u := NewUser(email, password, name, nowMillis, now);
    var t := Database.GetAll(db, Database.Users);
    LowerIdempotent(email);
    forall i | 0 <= i < |t| ensures !ObjectStore.Clash(Database.UniquePaths(Database.Users), t[i], UserRecord(u)) {
      assert t[i] in t;
    }
  }
}

=== FILE: cart.dfy ===
/** The shopping cart: a list of (product, quantity) entries with derived totals. */
module Cart {
  import opened Seqs
  import opened Catalog

  /** One cart entry. The quantity is whatever the caller passed: `addToCart` does not
      validate it, so it is an unbounded integer rather than a positive one. */
  datatype CartItem = CartItem(product: Product, quantity: int)

  /** The quantity `addToCart` uses when none is given. */
  const DefaultQuantity: int := 1

  /** No two entries of the cart refer to the same product id. */
  predicate UniqueIds(items: seq<CartItem>)
  {
    forall i, j :: 0 <= i < j < |items| ==> items[i].product.id != items[j].product.id
  }

  // ---------------------------------------------------------------------------
  // Derived totals (`calculateTotals`), recomputed from the entries on every read.
  // ---------------------------------------------------------------------------

  /** Price times quantity of one entry, in cents. */
  function LineTotal(item: CartItem): int
  {
    item.product.price * item.quantity
  }

  /** The sum of the line totals of the entries, in cents. */
  function Total(items: seq<CartItem>): int
  {
    if |items| == 0 then 0 else LineTotal(items[0]) + Total(items[1..])
  }

  /** The sum of the quantities of the entries. */
  function ItemCount(items: seq<CartItem>): int
  {
    if |items| == 0 then 0 else items[0].quantity + ItemCount(items[1..])
  }

  /** Appending an entry adds its line total and its quantity. */
  lemma {:induction false} TotalsAppend(items: seq<CartItem>, item: CartItem)
    ensures Total(items + [item]) == Total(items) + LineTotal(item)
    ensures ItemCount(items + [item]) == ItemCount(items) + item.quantity
  {
    if |items| > 0 {
      assert (items + [item])[1..] == items[1..] + [item];
      TotalsAppend(items[1..], item);
    }
  }

  /** `calculateTotals`: the two `reduce` passes, accumulating from the first entry on. */
  method CalculateTotals(items: seq<CartItem>) returns (total: int, itemCount: int)
    ensures total == Total(items)
    ensures itemCount == ItemCount(items)
  {
    total, itemCount := 0, 0;
    var i := 0;
    while i < |items|
      invariant 0 <= i <= |items|
      invariant total == Total(items[..i])
      invariant itemCount == ItemCount(items[..i])
    {
      TotalsAppend(items[..i], items[i]);
      assert items[..i + 1] == items[..i] + [items[i]];
      total := total + LineTotal(items[i]);
      itemCount := itemCount + items[i].quantity;
      i := i + 1;
    }
    assert items[..i] == items;
  }

  // ---------------------------------------------------------------------------
  // Membership.
  // ---------------------------------------------------------------------------

  /** `isInCart`: some entry has product id `id` (`items.some`). */
  function IsInCart(items: seq<CartItem>, id: string): (r: bool)
    ensures r <==> exists i :: 0 <= i < |items| && items[i].product.id == id
  {
    if |items| == 0 then false
    else
      assert forall i :: 0 < i < |items| ==> items[i] == items[1..][i - 1];
      items[0].product.id == id || IsInCart(items[1..], id)
  }

  /** The quantity of the first entry for `id`, or 0 when there is none. */
  function QuantityOf(items: seq<CartItem>, id: string): (r: int)
    ensures !IsInCart(items, id) ==> r == 0
  {
    if |items| == 0 then 0
    else if items[0].product.id == id then items[0].quantity
    else QuantityOf(items[1..], id)
  }

  // ---------------------------------------------------------------------------
  // Mutations. Each returns the new entry list.
  // ---------------------------------------------------------------------------

  /** `items.map(item => item.product.id === id ? { ...item, quantity: f(item.quantity) } : item)`. */
  function MapQuantity(items: seq<CartItem>, id: string, f: int -> int): (r: seq<CartItem>)
    ensures |r| == |items|
    ensures forall i :: 0 <= i < |items| ==> r[i].product == items[i].product
    ensures forall i :: 0 <= i < |items| && items[i].product.id != id ==> r[i] == items[i]
    ensures forall i :: 0 <= i < |items| && items[i].product.id == id ==> r[i].quantity == f(items[i].quantity)
  {
    if |items| == 0 then []
    else
      var head := if items[0].product.id == id then items[0].(quantity := f(items[0].quantity)) else items[0];
      [head] + MapQuantity(items[1..], id, f)
  }

  /** `addToCart(product, quantity)`: sum into the existing entry for the product, or append. */
  function AddToCart(items: seq<CartItem>, product: Product, quantity: int := DefaultQuantity): (r: seq<CartItem>)
    ensures IsInCart(r, product.id)
  {
    if IsInCart(items, product.id) then MapQuantity(items, product.id, n => n + quantity)
    else
      var r := items + [CartItem(product, quantity)];
      assert r[|items|].product.id == product.id;
      r
  }

  /** `removeFromCart(id)`: drop every entry for `id`, keep the rest in order. */
  function RemoveFromCart(items: seq<CartItem>, id: string): (r: seq<CartItem>)
    ensures !IsInCart(r, id)
    ensures forall x :: x in r <==> x in items && x.product.id != id
    ensures forall x :: multiset(r)[x] == if x.product.id != id then multiset(items)[x] else 0
    ensures Subsequence(r, items)
  {
    var keep := (x: CartItem) => x.product.id != id;
    var r := Filter(items, keep);
    FilterMembers(items, keep);
    FilterCounts(items, keep);
    FilterSubsequence(items, keep);
    assert forall i :: 0 <= i < |r| ==> r[i] in r;
    r
  }

  /** `updateQuantity(id, quantity)`: a non-positive quantity removes the entry, any other
      replaces its quantity. */
  function UpdateQuantity(items: seq<CartItem>, id: string, quantity: int): (r: seq<CartItem>)
    ensures |r| <= |items|
    ensures quantity <= 0 ==> !IsInCart(r, id) && forall x :: x in r <==> x in items && x.product.id != id
    ensures quantity > 0 ==> |r| == |items| && forall i :: 0 <= i < |r| ==>
      r[i].product == items[i].product &&
      r[i].quantity == if items[i].product.id == id then quantity else items[i].quantity
  {
    if quantity <= 0 then RemoveFromCart(items, id)
    else MapQuantity(items, id, _ => quantity)
  }

  /** `clearCart()`. */
  function ClearCart(items: seq<CartItem>): (r: seq<CartItem>)
    ensures |r| == 0
    ensures Total(r) == 0 && ItemCount(r) == 0
    ensures forall id :: !IsInCart(r, id)
  {
    []
  }

  // ---------------------------------------------------------------------------
  // Properties of the mutations.
  // ---------------------------------------------------------------------------

  /** Totals of a concatenation are the sums of the parts' totals. */
  lemma {:induction false} TotalsConcat(a: seq<CartItem>, b: seq<CartItem>)
    ensures Total(a + b) == Total(a) + Total(b)
    ensures ItemCount(a + b) == ItemCount(a) + ItemCount(b)
  {
    if |a| == 0 {
      assert a + b == b;
    } else {
      assert (a + b)[1..] == a[1..] + b;
      TotalsConcat(a[1..], b);
    }
  }

  /** Replacing one entry changes the totals by the difference of that entry alone. */
  lemma TotalsReplaceAt(items: seq<CartItem>, k: nat, item: CartItem)
    requires k < |items|
    ensures Total(items[k := item]) == Total(items) - LineTotal(items[k]) + LineTotal(item)
    ensures ItemCount(items[k := item]) == ItemCount(items) - items[k].quantity + item.quantity
  {
    assert items == items[..k] + [items[k]] + items[k + 1..];
    assert items[k := item] == items[..k] + [item] + items[k + 1..];
    TotalsConcat(items[..k] + [items[k]], items[k + 1..]);
    TotalsConcat(items[..k] + [item], items[k + 1..]);
    TotalsAppend(items[..k], items[k]);
    TotalsAppend(items[..k], item);
  }

  /** In a cart with unique ids, mapping the quantity of `id` changes only its one entry. */
  lemma MapQuantityAt(items: seq<CartItem>, id: string, f: int -> int, k: nat)
    requires UniqueIds(items)
    requires k < |items| && items[k].product.id == id
    ensures MapQuantity(items, id, f) == items[k := items[k].(quantity := f(items[k].quantity))]
  {
  }

  /** Mapping the quantity of an id that is not in the cart changes nothing. */
  lemma MapQuantityAbsent(items: seq<CartItem>, id: string, f: int -> int)
    requires !IsInCart(items, id)
    ensures MapQuantity(items, id, f) == items
  {
  }

  /** Adding a product already in the cart adds to that entry's quantity (the entry keeps its
      own product snapshot); the length and every other entry are unchanged. */
  lemma AddToCartExisting(items: seq<CartItem>, product: Product, quantity: int, k: nat)
    requires UniqueIds(items)
    requires k < |items| && items[k].product.id == product.id
    ensures AddToCart(items, product, quantity) == items[k := CartItem(items[k].product, items[k].quantity + quantity)]
  {
    MapQuantityAt(items, product.id, n => n + quantity, k);
  }

  /** Adding a product not in the cart appends one entry, at the end. */
  lemma AddToCartNew(items: seq<CartItem>, product: Product, quantity: int)
    requires !IsInCart(items, product.id)
    ensures |AddToCart(items, product, quantity)| == |items| + 1
    ensures AddToCart(items, product, quantity)[..|items|] == items
    ensures AddToCart(items, product, quantity)[|items|] == CartItem(product, quantity)
    ensures AddToCart(items, product)[|items|].quantity == 1
  {
  }

  /** `addToCart` never creates a second entry for a product. */
  lemma AddToCartPreservesUniqueIds(items: seq<CartItem>, product: Product, quantity: int)
    requires UniqueIds(items)
    ensures UniqueIds(AddToCart(items, product, quantity))
  {
  }

  /** The quantity held for the added product grows by exactly the added quantity, and the
      quantities of all other products are unchanged. */
  lemma {:induction false} AddToCartQuantity(items: seq<CartItem>, product: Product, quantity: int, other: string)
    ensures QuantityOf(AddToCart(items, product, quantity), product.id) == QuantityOf(items, product.id) + quantity
    ensures other != product.id ==>
      QuantityOf(AddToCart(items, product, quantity), other) == QuantityOf(items, other)
  {
    if IsInCart(items, product.id) {
      MapQuantityOf(items, product.id, n => n + quantity, product.id);
      MapQuantityOf(items, product.id, n => n + quantity, other);
    } else {
      QuantityOfAppend(items, CartItem(product, quantity), product.id);
      QuantityOfAppend(items, CartItem(product, quantity), other);
    }
  }

  lemma {:induction false} MapQuantityOf(items: seq<CartItem>, id: string, f: int -> int, other: string)
    requires IsInCart(items, id)
    ensures QuantityOf(MapQuantity(items, id, f), other) ==
      if other == id then f(QuantityOf(items, id)) else QuantityOf(items, other)
  {
    if items[0].product.id != id {
      MapQuantityOf(items[1..], id, f, other);
    } else if other != id {
      if |items| > 1 && IsInCart(items[1..], id) {
        MapQuantityOf(items[1..], id, f, other);
      } else {
        MapQuantityAbsent(items[1..], id, f);
      }
    }
  }

  lemma {:induction false} QuantityOfAppend(items: seq<CartItem>, item: CartItem, id: string)
    ensures QuantityOf(items + [item], id) ==
      if IsInCart(items, id) then QuantityOf(items, id) else if item.product.id == id then item.quantity else 0
  {
    if |items| > 0 {
      assert (items + [item])[1..] == items[1..] + [item];
      QuantityOfAppend(items[1..], item, id);
    }
  }

  /** Adding `quantity` to entry `k` raises the item count by `quantity` and the total by
      `quantity` times that entry's price. */
  lemma TotalsAddAt(items: seq<CartItem>, k: nat, quantity: int)
    requires k < |items|
    ensures var r := items[k := CartItem(items[k].product, items[k].quantity + quantity)];
      Total(r) == Total(items) + items[k].product.price * quantity &&
      ItemCount(r) == ItemCount(items) + quantity
  {
    TotalsReplaceAt(items, k, CartItem(items[k].product, items[k].quantity + quantity));
    var price := items[k].product.price;
    assert price * (items[k].quantity + quantity) == price * items[k].quantity + price * quantity;
  }

  /** With unique ids, adding a product already in the cart raises the item count by the
      added quantity and the total by that quantity times the price recorded in the cart. */
  lemma AddToCartTotalsExisting(items: seq<CartItem>, product: Product, quantity: int, k: nat)
    requires UniqueIds(items)
    requires k < |items| && items[k].product.id == product.id
    ensures ItemCount(AddToCart(items, product, quantity)) == ItemCount(items) + quantity
    ensures Total(AddToCart(items, product, quantity)) == Total(items) + items[k].product.price * quantity
  {
    AddToCartExisting(items, product, quantity, k);
    TotalsAddAt(items, k, quantity);
  }

  /** Adding a product not in the cart raises the item count by the quantity and the total
      by the quantity times the product's price. */
  lemma AddToCartTotalsNew(items: seq<CartItem>, product: Product, quantity: int)
    requires !IsInCart(items, product.id)
    ensures ItemCount(AddToCart(items, product, quantity)) == ItemCount(items) + quantity
    ensures Total(AddToCart(items, product, quantity)) == Total(items) + product.price * quantity
  {
    TotalsAppend(items, CartItem(product, quantity));
  }

  /** With unique ids, removing a present product deletes exactly its entry. */
  lemma RemoveFromCartPresent(items: seq<CartItem>, k: nat)
    requires UniqueIds(items) && k < |items|
    ensures RemoveFromCart(items, items[k].product.id) == items[..k] + items[k + 1..]
  {
    var id := items[k].product.id;
    FilterDropOne(items, k, (x: CartItem) => x.product.id != id);
  }

  /** Removing an id that is not in the cart is a no-op. */
  lemma RemoveFromCartAbsent(items: seq<CartItem>, id: string)
    requires !IsInCart(items, id)
    ensures RemoveFromCart(items, id) == items
  {
    FilterAll(items, (x: CartItem) => x.product.id != id);
  }

  /** Dropping entry `k` lowers the totals by that entry alone. */
  lemma TotalsWithout(items: seq<CartItem>, k: nat)
    requires k < |items|
    ensures Total(items[..k] + items[k + 1..]) == Total(items) - LineTotal(items[k])
    ensures ItemCount(items[..k] + items[k + 1..]) == ItemCount(items) - items[k].quantity
  {
    var a, x, b := items[..k], items[k], items[k + 1..];
    assert a + [x] == items[..k + 1];
    assert items[..k + 1] + b == items;
    TotalsSplit(a, x, b);
  }

  /** Totals of `a`, one entry, then `b`. */
  lemma TotalsSplit(a: seq<CartItem>, x: CartItem, b: seq<CartItem>)
    ensures Total((a + [x]) + b) == Total(a + b) + LineTotal(x)
    ensures ItemCount((a + [x]) + b) == ItemCount(a + b) + x.quantity
  {
    TotalsConcat(a + [x], b);
    TotalsConcat(a, b);
    TotalsAppend(a, x);
  }

  /** Dropping an entry keeps ids unique. */
  lemma UniqueIdsWithout(items: seq<CartItem>, k: nat)
    requires k < |items| && UniqueIds(items)
    ensures UniqueIds(items[..k] + items[k + 1..])
  {
    var r := items[..k] + items[k + 1..];
    assert forall i :: 0 <= i < |r| ==> r[i] == items[if i < k then i else i + 1];
  }

  /** With unique ids, removal keeps ids unique and lowers the totals by the removed entry alone. */
  lemma RemoveFromCartTotals(items: seq<CartItem>, k: nat)
    requires UniqueIds(items) && k < |items|
    ensures UniqueIds(RemoveFromCart(items, items[k].product.id))
    ensures Total(RemoveFromCart(items, items[k].product.id)) == Total(items) - LineTotal(items[k])
    ensures ItemCount(RemoveFromCart(items, items[k].product.id)) == ItemCount(items) - items[k].quantity
  {
    RemoveFromCartPresent(items, k);
    TotalsWithout(items, k);
    UniqueIdsWithout(items, k);
  }

  /** `updateQuantity(id, q)` with `q <= 0` is `removeFromCart(id)`, whether or not `id` is present. */
  lemma UpdateNonPositiveIsRemove(items: seq<CartItem>, id: string, quantity: int)
    requires quantity <= 0
    ensures UpdateQuantity(items, id, quantity) == RemoveFromCart(items, id)
  {
  }

  /** With a positive quantity, only the matching entry's quantity is replaced. */
  lemma UpdateQuantityPresent(items: seq<CartItem>, k: nat, quantity: int)
    requires UniqueIds(items) && k < |items| && quantity > 0
    ensures UpdateQuantity(items, items[k].product.id, quantity) == items[k := CartItem(items[k].product, quantity)]
  {
    MapQuantityAt(items, items[k].product.id, _ => quantity, k);
  }

  /** Updating the quantity of an id that is not in the cart leaves the cart unchanged. */
  lemma UpdateQuantityAbsent(items: seq<CartItem>, id: string, quantity: int)
    requires !IsInCart(items, id)
    ensures UpdateQuantity(items, id, quantity) == items
  {
    if quantity <= 0 {
      RemoveFromCartAbsent(items, id);
    } else {
      MapQuantityAbsent(items, id, _ => quantity);
    }
  }

  /** Adding the same product twice sums the quantities into one entry, with totals
      recomputed from it (two units then three of a 10.00 product: 5 units, 50.00). */
  lemma AddTwiceScenario(p: Product)
    requires p.price == 1000
    ensures var items := AddToCart(AddToCart([], p, 2), p, 3);
      items == [CartItem(p, 5)] && Total(items) == 5000 && ItemCount(items) == 5
  {
    var once := AddToCart([], p, 2);
    assert once == [CartItem(p, 2)];
    AddToCartExisting(once, p, 3, 0);
  }
}

=== FILE: catalog.dfy ===
/** The product record and the catalog queries of the storefront's static product list. */
module Catalog {
  import opened Wrappers
  import opened Text
  import opened Seqs

  /** A catalog product. Money is in integer cents and ratings in tenths of a star. */
  datatype Product = Product(
    id: string,
    name: string,
    description: string,
    price: nat,                 // cents
    originalPrice: Option<nat>, // cents; the pre-discount reference price, if any
    image: string,
    category: string,
    tags: seq<string>,
    stock: nat,
    rating: nat,                // tenths of a star, 0..50
    reviewCount: nat,
    features: seq<string>,
    createdAt: string,
    updatedAt: string)

  /** The fourteen default products, without their timestamps. The static catalog and the
      seed data carry exactly these records and differ only in `createdAt` / `updatedAt`.
      The free-text `description` and `features` of each product are left empty here. */
  const BaseCatalog: seq<Product> := [
      Product("prod-1", "VS Code Pro Extension Pack",
        "",
        4999, Some(9999), "/product_vscode.jpg", "tools",
        ["IDE", "Productivity", "Extensions"],
        1000, 48, 234,
        [],
        "", ""),
      Product("prod-2", "Git Mastery Course",
        "",
        7999, Some(14999), "/product_git.jpg", "courses",
        ["Git", "Version Control", "Course"],
        500, 49, 567,
        [],
        "", ""),
      Product("prod-3", "React Dashboard Pro Template",
        "",
        12999, Some(19999), "/product_react_dashboard.jpg", "templates",
        ["React", "Template", "Dashboard"],
        200, 47, 189,
        [],
        "", ""),
      Product("prod-4", "Cloud VPS Starter",
        "",
        1999, None, "/product_vps.jpg", "hosting",
        ["VPS", "Cloud", "Hosting"],
        100, 46, 423,
        [],
        "", ""),
      Product("prod-5", "Cloud VPS Professional",
        "",
        4999, None, "/product_vps_pro.jpg", "hosting",
        ["VPS", "Cloud", "Enterprise"],
        50, 48, 312,
        [],
        "", ""),
      Product("prod-6", "Dedicated Server Enterprise",
        "",
        19999, None, "/product_dedicated.jpg", "hosting",
        ["Dedicated", "Enterprise", "Server"],
        20, 49, 156,
        [],
        "", ""),
      Product("prod-7", "Full Stack Web Development Bootcamp",
        "",
        29999, Some(59999), "/product_bootcamp.jpg", "courses",
        ["Bootcamp", "Full Stack", "Course"],
        100, 49, 892,
        [],
        "", ""),
      Product("prod-8", "Python for Data Science",
        "",
        8999, Some(17999), "/product_python.jpg", "courses",
        ["Python", "Data Science", "ML"],
        300, 47, 445,
        [],
        "", ""),
      Product("prod-9", "API Testing Suite Pro",
        "",
        5999, Some(11999), "/product_api.jpg", "tools",
        ["API", "Testing", "Development"],
        400, 45, 278,
        [],
        "", ""),
      Product("prod-10", "Docker & Kubernetes Mastery",
        "",
        9999, Some(19999), "/product_docker.jpg", "courses",
        ["Docker", "Kubernetes", "DevOps"],
        250, 48, 334,
        [],
        "", ""),
      Product("prod-11", "E-commerce Starter Kit",
        "",
        14999, Some(24999), "/product_ecommerce.jpg", "templates",
        ["E-commerce", "Next.js", "Template"],
        150, 46, 198,
        [],
        "", ""),
      Product("prod-12", "Portfolio Website Template",
        "",
        3999, Some(7999), "/product_portfolio.jpg", "templates",
        ["Portfolio", "Website", "Template"],
        500, 47, 567,
        [],
        "", ""),
      Product("prod-13", "SEO Optimizer Plugin",
        "",
        2999, Some(5999), "/product_seo.jpg", "plugins",
        ["SEO", "Plugin", "Marketing"],
        800, 44, 223,
        [],
        "", ""),
      Product("prod-14", "Security Scanner Pro",
        "",
        7999, Some(14999), "/product_security.jpg", "plugins",
        ["Security", "Scanner", "Protection"],
        300, 48, 178,
        [],
        "", "")
  ]

  /** The fixed creation (and update) date of each product of the static catalog. */
  const SampleDates: seq<string> := ["2024-01-15T00:00:00Z", "2024-02-01T00:00:00Z", "2024-01-20T00:00:00Z", "2024-01-10T00:00:00Z", "2024-01-10T00:00:00Z", "2024-01-12T00:00:00Z", "2024-02-15T00:00:00Z", "2024-03-01T00:00:00Z", "2024-01-25T00:00:00Z", "2024-02-20T00:00:00Z", "2024-03-10T00:00:00Z", "2024-03-15T00:00:00Z", "2024-01-30T00:00:00Z", "2024-02-05T00:00:00Z"]

  /** A product with its timestamps set. */
  function Stamp(p: Product, created: string, updated: string): Product
  {
    p.(createdAt := created, updatedAt := updated)
  }

  /** Each product stamped with the matching date as both its creation and update time. */
  function StampEach(ps: seq<Product>, dates: seq<string>): (r: seq<Product>)
    requires |dates| == |ps|
    ensures |r| == |ps|
    ensures forall i :: 0 <= i < |r| ==> r[i] == Stamp(ps[i], dates[i], dates[i])
  {
    seq(|ps|, i requires 0 <= i < |ps| => Stamp(ps[i], dates[i], dates[i]))
  }

  /** `sampleProducts`: the static catalog, each product stamped with its fixed date. */
  function SampleProducts(): (r: seq<Product>)
    ensures |r| == |BaseCatalog|
    ensures forall i :: 0 <= i < |r| ==>
      r[i].id == BaseCatalog[i].id && r[i].createdAt == SampleDates[i] && r[i].updatedAt == SampleDates[i]
  {
    StampEach(BaseCatalog, SampleDates)
  }

  /** The product ids of a list, in order. */
  function Ids(ps: seq<Product>): (r: seq<string>)
    ensures |r| == |ps|
    ensures forall i :: 0 <= i < |ps| ==> r[i] == ps[i].id
  {
    seq(|ps|, i requires 0 <= i < |ps| => ps[i].id)
  }

  /** No two products of the list share an id. */
  predicate DistinctIds(ps: seq<Product>)
  {
    forall i, j :: 0 <= i < j < |ps| ==> ps[i].id != ps[j].id
  }

  // ---------------------------------------------------------------------------
  // Queries. Each takes the product list explicitly; the `Get…` wrappers apply it
  // to the static catalog, as products.ts does.
  // ---------------------------------------------------------------------------

  /** The category name that stands for "every category". */
  const AllCategories: string := "all"

  /** `getProductsByCategory` over an explicit list. */
  function ByCategory(ps: seq<Product>, category: string): (r: seq<Product>)
    ensures category == AllCategories ==> r == ps
    ensures category != AllCategories ==>
      forall p :: p in r <==> p in ps && p.category == category
    ensures category != AllCategories ==>
      forall p :: multiset(r)[p] == if p.category == category then multiset(ps)[p] else 0
    ensures Subsequence(r, ps)
  {
    if category == AllCategories then
      PrefixIsSubsequence(ps, |ps|);
      assert ps[..|ps|] == ps;
      ps
    else
      var p := (p: Product) => p.category == category;
      FilterMembers(ps, p);
      FilterCounts(ps, p);
      FilterSubsequence(ps, p);
      Filter(ps, p)
  }

  /** `getProductsByCategory`: the whole catalog for "all", else its products in that category. */
  function GetProductsByCategory(category: string): (r: seq<Product>)
    ensures category == AllCategories ==> r == SampleProducts()
    ensures category != AllCategories ==>
      forall p :: p in r <==> p in SampleProducts() && p.category == category
    ensures Subsequence(r, SampleProducts())
  {
    ByCategory(SampleProducts(), category)
  }

  /** `getProductById` over an explicit list: the first product carrying `id`, if any. */
  function FindById(ps: seq<Product>, id: string): (r: Option<Product>)
    ensures r.None? <==> forall i :: 0 <= i < |ps| ==> ps[i].id != id
    ensures r.Some? ==> exists i :: 0 <= i < |ps| && ps[i] == r.value && ps[i].id == id &&
                                   forall j :: 0 <= j < i ==> ps[j].id != id
  {
    if |ps| == 0 then None
    else if ps[0].id == id then Some(ps[0])
    else
      var r := FindById(ps[1..], id);
      assert forall i :: 0 < i < |ps| ==> ps[i] == ps[1..][i - 1];
      r
  }

  /** `getProductById`: the catalog product with that id, or nothing. */
  function GetProductById(id: string): (r: Option<Product>)
    ensures r.Some? ==> r.value in SampleProducts() && r.value.id == id
    ensures r.None? <==> forall p :: p in SampleProducts() ==> p.id != id
  {
    FindById(SampleProducts(), id)
  }

  /** JavaScript truthiness of `p.originalPrice`: present and non-zero. */
  predicate HasOriginalPrice(p: Product)
  {
    p.originalPrice.Some? && p.originalPrice.value != 0
  }

  /** The featured-product rating threshold, 4.7 stars, in tenths. */
  const FeaturedRating: nat := 47

  /** The filter `getFeaturedProducts` applies before truncating. */
  predicate IsFeatured(p: Product)
  {
    p.rating >= FeaturedRating && HasOriginalPrice(p)
  }

  /** The end index `Array.prototype.slice(0, end)` uses on a list of length `len`:
      a negative `end` counts back from the end of the list. */
  function SliceEnd(len: nat, end: int): (r: nat)
    ensures r <= len
    ensures 0 <= end ==> r == if end < len then end else len
    ensures end < 0 ==> r == if len + end < 0 then 0 else len + end
  {
    if end < 0 then (if len + end < 0 then 0 else len + end)
    else if end > len then len else end
  }

  /** The default `limit` of `getFeaturedProducts`. */
  const DefaultFeaturedLimit: int := 4

  /** `getFeaturedProducts` over an explicit list: the discounted products rated at least
      4.7, in catalog order, cut at `limit`. */
  function Featured(ps: seq<Product>, limit: int): (r: seq<Product>)
    ensures 0 <= limit ==> |r| <= limit
    ensures forall p :: p in r ==> p in ps && p.rating >= FeaturedRating && HasOriginalPrice(p)
    ensures r <= Filter(ps, IsFeatured)
    ensures 0 <= limit ==> |r| == if limit < |Filter(ps, IsFeatured)| then limit else |Filter(ps, IsFeatured)|
    ensures limit < 0 ==>
      |r| == if |Filter(ps, IsFeatured)| + limit < 0 then 0 else |Filter(ps, IsFeatured)| + limit
    ensures Subsequence(r, ps)
  {
    var candidates := Filter(ps, IsFeatured);
    var r := candidates[..SliceEnd(|candidates|, limit)];
    FilterMembers(ps, IsFeatured);
    FilterSubsequence(ps, IsFeatured);
    PrefixIsSubsequence(candidates, |r|);
    SubsequenceTransitive(r, candidates, ps);
    assert forall p :: p in r ==> p in candidates;
    r
  }

  /** `getFeaturedProducts`: at most `limit` (by default four) discounted catalog products
      rated at least 4.7, in catalog order. */
  function GetFeaturedProducts(limit: int := DefaultFeaturedLimit): (r: seq<Product>)
    ensures 0 <= limit ==> |r| <= limit
    ensures forall p :: p in r ==> p in SampleProducts() && IsFeatured(p)
    ensures r <= Filter(SampleProducts(), IsFeatured)
    ensures 0 <= limit ==>
      |r| == if limit < |Filter(SampleProducts(), IsFeatured)| then limit else |Filter(SampleProducts(), IsFeatured)|
    ensures Subsequence(r, SampleProducts())
  {
    Featured(SampleProducts(), limit)
  }

  /** Some tag of `p`, lower-cased, contains the lower-cased query `q`. */
  predicate SomeTagContains(p: Product, q: string)
  {
    exists t :: t in p.tags && Contains(Lower(t), q)
  }

  /** The match `searchProducts` applies, given the already lower-cased query `q`. */
  predicate MatchesQuery(p: Product, q: string)
  {
    Contains(Lower(p.name), q) || Contains(Lower(p.description), q) || SomeTagContains(p, q)
  }

  /** `searchProducts` over an explicit list. */
  function Search(ps: seq<Product>, query: string): (r: seq<Product>)
    ensures forall p :: p in r <==>
      (p in ps &&
       (Contains(Lower(p.name), Lower(query)) ||
        Contains(Lower(p.description), Lower(query)) ||
        exists t :: t in p.tags && Contains(Lower(t), Lower(query))))
    ensures forall p :: multiset(r)[p] == if MatchesQuery(p, Lower(query)) then multiset(ps)[p] else 0
    ensures Subsequence(r, ps)
  {
    var q := Lower(query);
    var m := (p: Product) => MatchesQuery(p, q);
    FilterMembers(ps, m);
    FilterCounts(ps, m);
    FilterSubsequence(ps, m);
    Filter(ps, m)
  }

  /** `searchProducts`: the catalog products whose name, description or a tag contains the
      query, ignoring case, in catalog order. */
  function SearchProducts(query: string): (r: seq<Product>)
    ensures forall p :: p in r <==>
      (p in SampleProducts() &&
       (Contains(Lower(p.name), Lower(query)) ||
        Contains(Lower(p.description), Lower(query)) ||
        exists t :: t in p.tags && Contains(Lower(t), Lower(query))))
    ensures Subsequence(r, SampleProducts())
  {
    Search(SampleProducts(), query)
  }

  // ---------------------------------------------------------------------------
  // Properties of the queries and of the static catalog.
  // ---------------------------------------------------------------------------

  /** An empty search query matches every product: `searchProducts("")` is the whole list. */
  lemma SearchEmptyReturnsAll(ps: seq<Product>)
    ensures Search(ps, "") == ps
  {
    forall i | 0 <= i < |ps| ensures MatchesQuery(ps[i], Lower("")) {
      ContainsEmpty(Lower(ps[i].name));
    }
    FilterAll(ps, (p: Product) => MatchesQuery(p, Lower("")));
  }

  /** The ids of the default products, in catalog order. */
  const CatalogIds: seq<string> := [
    "prod-1", "prod-2", "prod-3", "prod-4", "prod-5", "prod-6", "prod-7",
    "prod-8", "prod-9", "prod-10", "prod-11", "prod-12", "prod-13", "prod-14"]

  lemma BaseCatalogIds()
    ensures Ids(BaseCatalog) == CatalogIds
  {
  }

  lemma CatalogIdsPairwiseDistinct()
    ensures forall i, j :: 0 <= i < j < |CatalogIds| ==> CatalogIds[i] != CatalogIds[j]
  {
  }

  /** Stamping timestamps changes nothing but the two dates: each sample product is the catalog
      product in the same position, dated with its fixed date. */
  lemma SampleProductsAgreeWithBase()
    ensures |SampleProducts()| == |BaseCatalog|
    ensures forall i :: 0 <= i < |BaseCatalog| ==>
      var p := SampleProducts()[i];
      p.id == BaseCatalog[i].id && p.price == BaseCatalog[i].price &&
      p.originalPrice == BaseCatalog[i].originalPrice && p.rating == BaseCatalog[i].rating
    ensures forall i :: 0 <= i < |BaseCatalog| ==>
      SampleProducts()[i].(createdAt := BaseCatalog[i].createdAt, updatedAt := BaseCatalog[i].updatedAt) == BaseCatalog[i]
    ensures forall i :: 0 <= i < |BaseCatalog| ==>
      SampleProducts()[i].createdAt == SampleDates[i] && SampleProducts()[i].updatedAt == SampleDates[i]
  {
  }

  /** When the first seven products are featured, featured, featured, not, not, not, featured,
      the featured filter starts with positions 0, 1, 2 and 6. */
  lemma {:induction false} FeaturedStartsWith(ps: seq<Product>)
    requires |ps| >= 7
    requires IsFeatured(ps[0]) && IsFeatured(ps[1]) && IsFeatured(ps[2])
    requires !IsFeatured(ps[3]) && !IsFeatured(ps[4]) && !IsFeatured(ps[5]) && IsFeatured(ps[6])
    ensures |Filter(ps, IsFeatured)| >= 4
    ensures Filter(ps, IsFeatured)[..4] == [ps[0], ps[1], ps[2], ps[6]]
  {
    var t1, t2, t3, t4, t5, t6, t7 := ps[1..], ps[2..], ps[3..], ps[4..], ps[5..], ps[6..], ps[7..];
    assert t1[0] == ps[1] && t1[1..] == t2;
    assert t2[0] == ps[2] && t2[1..] == t3;
    assert t3[0] == ps[3] && t3[1..] == t4;
    assert t4[0] == ps[4] && t4[1..] == t5;
    assert t5[0] == ps[5] && t5[1..] == t6;
    assert t6[0] == ps[6] && t6[1..] == t7;
    var rest := Filter(t7, IsFeatured);
    assert Filter(t6, IsFeatured) == [ps[6]] + rest;
    assert Filter(t5, IsFeatured) == Filter(t6, IsFeatured);
    assert Filter(t4, IsFeatured) == Filter(t5, IsFeatured);
    assert Filter(t3, IsFeatured) == Filter(t4, IsFeatured);
    assert Filter(t2, IsFeatured) == [ps[2]] + Filter(t3, IsFeatured);
    assert Filter(t1, IsFeatured) == [ps[1]] + Filter(t2, IsFeatured);
    assert Filter(ps, IsFeatured) == [ps[0]] + Filter(t1, IsFeatured);
    assert Filter(ps, IsFeatured) == [ps[0], ps[1], ps[2], ps[6]] + rest;
  }

  /** Which of the first seven catalog products are featured. */
  lemma BaseFeaturedFlags()
    ensures |BaseCatalog| >= 7
    ensures IsFeatured(BaseCatalog[0]) && IsFeatured(BaseCatalog[1]) && IsFeatured(BaseCatalog[2])
    ensures !IsFeatured(BaseCatalog[3]) && !IsFeatured(BaseCatalog[4]) && !IsFeatured(BaseCatalog[5])
    ensures IsFeatured(BaseCatalog[6])
  {
  }

  /** Which of the first seven sample products are featured, and their ids. */
  lemma SampleFeaturedFlags(ps: seq<Product>)
    requires ps == SampleProducts()
    ensures |ps| >= 7
    ensures IsFeatured(ps[0]) && IsFeatured(ps[1]) && IsFeatured(ps[2])
    ensures !IsFeatured(ps[3]) && !IsFeatured(ps[4]) && !IsFeatured(ps[5]) && IsFeatured(ps[6])
    ensures ps[0].id == "prod-1" && ps[1].id == "prod-2" && ps[2].id == "prod-3" && ps[6].id == "prod-7"
  {
    SampleProductsAgreeWithBase();
    BaseCatalogIds();
    BaseFeaturedFlags();
    assert forall i :: 0 <= i < 7 ==> IsFeatured(ps[i]) == IsFeatured(BaseCatalog[i]);
    assert forall i :: 0 <= i < 7 ==> ps[i].id == CatalogIds[i];
  }

  /** With the default limit, a list flagged like the catalog's first seven yields the products
      at positions 0, 1, 2 and 6; with the catalog's ids those are prod-1, prod-2, prod-3, prod-7. */
  lemma {:induction false} DefaultFeaturedOf(ps: seq<Product>)
    requires |ps| >= 7
    requires IsFeatured(ps[0]) && IsFeatured(ps[1]) && IsFeatured(ps[2])
    requires !IsFeatured(ps[3]) && !IsFeatured(ps[4]) && !IsFeatured(ps[5]) && IsFeatured(ps[6])
    ensures Featured(ps, DefaultFeaturedLimit) == [ps[0], ps[1], ps[2], ps[6]]
    ensures ps[0].id == "prod-1" && ps[1].id == "prod-2" && ps[2].id == "prod-3" && ps[6].id == "prod-7" ==>
      Ids(Featured(ps, DefaultFeaturedLimit)) == ["prod-1", "prod-2", "prod-3", "prod-7"]
  {
    FeaturedStartsWith(ps);
  }

  /** With the default limit, the featured products are the first four discounted products
      rated at least 4.7: prod-1, prod-2, prod-3 and prod-7. */
  lemma DefaultFeaturedProducts()
    ensures Ids(GetFeaturedProducts()) == ["prod-1", "prod-2", "prod-3", "prod-7"]
  {
    var ps := SampleProducts();
    SampleFeaturedFlags(ps);
    DefaultFeaturedOf(ps);
  }

  /** The default catalog holds products prod-1 .. prod-14 and no id twice. */
  lemma CatalogIdsDistinct()
    ensures DistinctIds(BaseCatalog)
    ensures DistinctIds(SampleProducts())
  {
    CatalogIdsPairwiseDistinct();
    BaseCatalogIds();
    assert forall i :: 0 <= i < |BaseCatalog| ==> BaseCatalog[i].id == CatalogIds[i];
    SampleProductsAgreeWithBase();
  }

  /** A discounted product sells below its original price. */
  predicate DiscountBelowOriginal(p: Product)
  {
    p.originalPrice.Some? ==> p.price < p.originalPrice.value
  }

  /** Every discounted product of the default catalog is cheaper than its original price. */
  lemma CatalogDiscountsBelowOriginal()
    ensures forall i :: 0 <= i < |BaseCatalog| ==> DiscountBelowOriginal(BaseCatalog[i])
    ensures forall i :: 0 <= i < |SampleProducts()| ==> DiscountBelowOriginal(SampleProducts()[i])
  {
    SampleProductsAgreeWithBase();
  }
}

=== FILE: catalog_view.dfy ===
/** The storefront catalog section's filter state: the active category and the search box. */
module CatalogView {
  import opened Text
  import opened Seqs
  import opened Catalog

  /** The section's filter state. */
  datatype Filters = Filters(activeCategory: string, searchQuery: string)

  /** On mount: every category, empty search box. */
  const InitialFilters: Filters := Filters(AllCategories, "")

  /** The category half of the `filteredProducts` predicate. */
  predicate MatchesCategory(f: Filters, p: Product)
  {
    f.activeCategory == AllCategories || p.category == f.activeCategory
  }

  /** The search half: an empty query shows everything (`!searchQuery`). */
  predicate MatchesSearch(f: Filters, p: Product)
  {
    |f.searchQuery| == 0 || MatchesQuery(p, Lower(f.searchQuery))
  }

  predicate Shown(f: Filters, p: Product)
  {
    MatchesCategory(f, p) && MatchesSearch(f, p)
  }

  /** `filteredProducts`: the loaded products the section displays. */
  function FilteredProducts(products: seq<Product>, f: Filters): (r: seq<Product>)
    ensures forall p :: p in r <==>
      (p in products &&
       (f.activeCategory == AllCategories || p.category == f.activeCategory) &&
       (|f.searchQuery| == 0 ||
        Contains(Lower(p.name), Lower(f.searchQuery)) ||
        Contains(Lower(p.description), Lower(f.searchQuery)) ||
        exists t :: t in p.tags && Contains(Lower(t), Lower(f.searchQuery))))
    ensures forall p :: multiset(r)[p] == if Shown(f, p) then multiset(products)[p] else 0
    ensures Subsequence(r, products)
    ensures |r| <= |products|
  {
    var shown := (p: Product) => Shown(f, p);
    FilterMembers(products, shown);
    FilterCounts(products, shown);
    FilterSubsequence(products, shown);
    Filter(products, shown)
  }

  /** Clicking a category button: that category, and the search box is emptied. */
  function SelectCategory(f: Filters, category: string): (r: Filters)
    ensures r.activeCategory == category && |r.searchQuery| == 0
    ensures forall p :: MatchesSearch(r, p)
  {
    Filters(category, "")
  }

  /** Typing in the search box. */
  function SetSearchQuery(f: Filters, query: string): (r: Filters)
    ensures r.activeCategory == f.activeCategory && r.searchQuery == query
  {
    f.(searchQuery := query)
  }

  /** The "clear filters" button: back to every category and an empty query. */
  function ClearFilters(f: Filters): (r: Filters)
    ensures forall p :: Shown(r, p)
  {
    Filters(AllCategories, "")
  }

  /** With no category and no query every loaded product is shown, in order. */
  lemma UnfilteredShowsAll(products: seq<Product>)
    ensures FilteredProducts(products, InitialFilters) == products
  {
    FilterAll(products, (p: Product) => Shown(InitialFilters, p));
  }

  /** After "clear filters" the whole loaded list is shown, whatever the filters were. */
  lemma ClearFiltersShowsAll(f: Filters, products: seq<Product>)
    ensures ClearFilters(f) == InitialFilters
    ensures FilteredProducts(products, ClearFilters(f)) == products
  {
    UnfilteredShowsAll(products);
  }

  /** Selecting a category shows exactly what `getProductsByCategory` returns for it. */
  lemma SelectCategoryMatchesCatalogQuery(f: Filters, category: string, products: seq<Product>)
    ensures SelectCategory(f, category).searchQuery == ""
    ensures FilteredProducts(products, SelectCategory(f, category)) == ByCategory(products, category)
  {
    var g := SelectCategory(f, category);
    if category == AllCategories {
      UnfilteredShowsAll(products);
    } else {
      FilterCongruent(products, (p: Product) => Shown(g, p), (p: Product) => p.category == category);
    }
  }

  /** Searching across every category shows exactly what `searchProducts` returns. */
  lemma SearchAllMatchesCatalogQuery(f: Filters, query: string, products: seq<Product>)
    requires f.activeCategory == AllCategories
    ensures FilteredProducts(products, SetSearchQuery(f, query)) == Search(products, query)
  {
    var g := SetSearchQuery(f, query);
    assert g == Filters(AllCategories, query);
    if |query| == 0 {
      UnfilteredShowsAll(products);
      SearchEmptyReturnsAll(products);
    } else {
      FilterCongruent(products, (p: Product) => Shown(g, p), (p: Product) => MatchesQuery(p, Lower(query)));
    }
  }
}

=== FILE: connection.dfy ===
/** The single shared connection to the database: it is opened on first use, the outcome of
    that one attempt is remembered, and every request waits on it. */
module Connection {
  import opened Wrappers
  import opened Records
  import Database

  /** Where the memoised open stands: never asked, opened, or rejected for good. */
  datatype InitState = NotStarted | Opened | Failed

  /** The connection state together with the persisted contents of the database. */
  datatype Conn = Conn(init: InitState, data: Database.Store)

  /** Before the first request: nothing opened, every store empty. */
  const Fresh: Conn := Conn(NotStarted, Database.EmptyStore)

  /** `init`: the first call opens the database, succeeding exactly when `opens`; every later
      call returns the remembered outcome, failure included. */
  function Init(c: Conn, opens: bool): (r: Conn)
    ensures r.data == c.data
    ensures !r.init.NotStarted?
    ensures c.init.NotStarted? ==> (r.init.Opened? <==> opens)
    ensures !c.init.NotStarted? ==> r == c
  {
    if !c.init.NotStarted? then c
    else if opens then c.(init := Opened)
    else c.(init := Failed)
  }

  /** The requests the database class offers. */
  datatype Request =
    | GetAll(store: Database.StoreName)
    | GetById(store: Database.StoreName, id: string)
    | Add(store: Database.StoreName, record: Record)
    | Update(store: Database.StoreName, record: Record)
    | Delete(store: Database.StoreName, id: string)
    | GetByIndex(store: Database.StoreName, indexName: string, value: string)
    | Clear(store: Database.StoreName)
    | IsEmpty(store: Database.StoreName)
  {
    /** Requests made on a read-only transaction. */
    predicate ReadOnly()
    {
      GetAll? || GetById? || GetByIndex? || IsEmpty?
    }
  }

  /** What a request resolves to. */
  datatype Response =
    | Records(records: seq<Record>)
    | Found(found: Option<Record>)
    | Stored(stored: Record)
    | Done
    | Emptiness(empty: bool)

  /** One request against an open database: each request performs its store operation. A read
      writes nothing, a failed request writes nothing, and an add or update resolves to the
      record it was given. */
  function Execute(db: Database.Store, req: Request): (r: (Database.Store, Result<Response, Database.DbError>))
    requires Database.Valid(db)
    ensures Database.Valid(r.0)
    ensures req.ReadOnly() || r.1.Failure? ==> r.0 == db
    ensures (req.Add? || req.Update?) && r.1.Success? ==> r.1.value == Stored(req.record)
    ensures req.GetAll? ==> r.1 == Success(Records(Database.GetAll(db, req.store)))
    ensures req.GetById? ==> r.1 == Success(Found(Database.GetById(db, req.store, req.id)))
    ensures req.Add? ==> (r.1.Success? <==> Database.Add(db, req.store, req.record).Success?)
    ensures req.Add? && r.1.Success? ==> r.0 == Database.Add(db, req.store, req.record).value
    ensures req.Add? && r.1.Failure? ==> r.1.error == Database.ConstraintError
    ensures req.Update? ==> (r.1.Success? <==> Database.Update(db, req.store, req.record).Success?)
    ensures req.Update? && r.1.Success? ==> r.0 == Database.Update(db, req.store, req.record).value
    ensures req.Update? && r.1.Failure? ==> r.1.error == Database.ConstraintError
    ensures req.Delete? ==> r.1 == Success(Done) && Database.GetById(r.0, req.store, req.id).None?
    ensures req.Delete? ==> r.0 == Database.Delete(db, req.store, req.id)
    ensures req.Delete? ==> forall id :: id != req.id ==> Database.GetById(r.0, req.store, id) == Database.GetById(db, req.store, id)
    ensures req.GetByIndex? ==> (r.1.Failure? <==> Database.GetByIndex(db, req.store, req.indexName, req.value).Failure?)
    ensures req.GetByIndex? && r.1.Success? ==>
      r.1.value == Records(Database.GetByIndex(db, req.store, req.indexName, req.value).value)
    ensures req.Clear? ==> r.1 == Success(Done) && Database.IsEmpty(r.0, req.store)
    ensures req.Clear? ==> r.0 == Database.Clear(db, req.store)
    ensures req.IsEmpty? ==> r.1 == Success(Emptiness(Database.IsEmpty(db, req.store)))
  {
    match req
    case GetAll(s) => (db, Success(Records(Database.GetAll(db, s))))
    case GetById(s, id) => (db, Success(Found(Database.GetById(db, s, id))))
    case Add(s, rec) =>
      (match Database.Add(db, s, rec)
       case Success(db') => (db', Success(Stored(rec)))
       case Failure(e) => (db, Failure(e)))
    case Update(s, rec) =>
      (match Database.Update(db, s, rec)
       case Success(db') => (db', Success(Stored(rec)))
       case Failure(e) => (db, Failure(e)))
    case Delete(s, id) =>
      forall other | other != id
        ensures Database.GetById(Database.Delete(db, s, id), s, other) == Database.GetById(db, s, other)
      {
        Database.DeleteThenGet(db, s, id, s, other);
      }
      (Database.Delete(db, s, id), Success(Done))
    case GetByIndex(s, name, value) =>
      (match Database.GetByIndex(db, s, name, value)
       case Success(rs) => (db, Success(Records(rs)))
       case Failure(e) => (db, Failure(e)))
    case Clear(s) =>
      Database.ClearThenEmpty(db, s);
      (Database.Clear(db, s), Success(Done))
    case IsEmpty(s) => (db, Success(Emptiness(Database.IsEmpty(db, s))))
  }

  /** A request through the connection: first `init`, then the request if the database is
      open; otherwise the open error, with nothing written. */
  function Call(c: Conn, opens: bool, req: Request): (r: (Conn, Result<Response, Database.DbError>))
    requires Database.Valid(c.data)
    ensures Database.Valid(r.0.data)
    ensures r.0.init == Init(c, opens).init
    ensures !r.0.init.Opened? ==> r.1 == Failure(Database.OpenFailed) && r.0.data == c.data
    ensures r.0.init.Opened? ==> r.0.data == Execute(c.data, req).0 && r.1 == Execute(c.data, req).1
  {
    var c' := Init(c, opens);
    if c'.init.Opened? then
      var (db', res) := Execute(c'.data, req);
      (c'.(data := db'), res)
    else (c', Failure(Database.OpenFailed))
  }

  /** Calling `init` again changes nothing: the first outcome stands. */
  lemma InitIdempotent(c: Conn, first: bool, again: bool)
    ensures Init(Init(c, first), again) == Init(c, first)
  {
  }

  /** Once the open has been rejected, every later request fails with that error and leaves the
      connection as it is, whatever a new open attempt would have done. */
  lemma FailureIsSticky(c: Conn, opens: bool, req: Request)
    requires Database.Valid(c.data) && c.init.Failed?
    ensures Call(c, opens, req) == (c, Failure(Database.OpenFailed))
  {
  }

  /** Whenever the database is open after `init`, whether it was opened before or by this very
      request, the request through the connection is the request on the database; once it was
      already open, the outcome of a further open attempt is irrelevant. */
  lemma CallWhenOpen(c: Conn, opens: bool, req: Request)
    requires Database.Valid(c.data) && Init(c, opens).init.Opened?
    ensures Call(c, opens, req).0 == Init(c, opens).(data := Execute(c.data, req).0)
    ensures Call(c, opens, req).1 == Execute(c.data, req).1
    ensures c.init.Opened? ==> Call(c, opens, req).0 == c.(data := Execute(c.data, req).0)
  {
  }

  /** Once an add request has succeeded, a lookup of the record's key finds it, and a lookup of
      any other key finds what it found before. */
  lemma AddThenGetById(db: Database.Store, s: Database.StoreName, rec: Record, id: string)
    requires Database.Valid(db) && Execute(db, Add(s, rec)).1.Success?
    ensures Execute(Execute(db, Add(s, rec)).0, GetById(s, id)).1 ==
      Success(Found(if id == rec.Id() then Some(rec) else Database.GetById(db, s, id)))
  {
    Database.AddThenGet(db, s, rec, s, id);
  }
}

=== FILE: database.dfy ===
/** The browser database `AuraCodeDB`: its five object stores, their indexes, the generic
    operations on them, and the connection that opens the database once. */
module Database {
  import opened Wrappers
  import opened Seqs
  import opened Records
  import opened ObjectStore

  datatype StoreName = Products | Users | Orders | Cart | SiteSettings

  /** An index over one key path of a store's records. */
  datatype IndexSpec = IndexSpec(name: string, keyPath: string, unique: bool)

  /** The indexes the upgrade creates on each store. */
  function Indexes(s: StoreName): (r: seq<IndexSpec>)
    ensures |r| <= 2
    ensures forall i, j :: 0 <= i < j < |r| ==> r[i].name != r[j].name
    ensures forall ix :: ix in r ==> ix.name == ix.keyPath
    ensures s == StoreName.SiteSettings ==> r == []
  {
    match s
    case Products => [IndexSpec("category", "category", false), IndexSpec("name", "name", false)]
    case Users => [IndexSpec("email", "email", true), IndexSpec("role", "role", false)]
    case Orders => [IndexSpec("userId", "userId", false), IndexSpec("status", "status", false)]
    case Cart => [IndexSpec("userId", "userId", true)]
    case SiteSettings => []
  }

  /** The key paths of the store's unique indexes. */
  function UniquePaths(s: StoreName): (r: seq<string>)
    ensures forall p :: p in r <==> exists ix :: ix in Indexes(s) && ix.unique && ix.keyPath == p
  {
    match s
    case Users => assert Indexes(s)[0] in Indexes(s); ["email"]
    case Cart => assert Indexes(s)[0] in Indexes(s); ["userId"]
    case _ => []
  }

  /** The index named `name` on store `s`, if the store has one. */
  function FindIndex(s: StoreName, name: string): (r: Option<IndexSpec>)
    ensures r.Some? ==> r.value in Indexes(s) && r.value.name == name
    ensures r.None? <==> forall ix :: ix in Indexes(s) ==> ix.name != name
  {
    var ixs := Indexes(s);
    if |ixs| > 0 && ixs[0].name == name then Some(ixs[0])
    else if |ixs| > 1 && ixs[1].name == name then Some(ixs[1])
    else None
  }

  /** Why a request fails: a key or unique-index value already taken, an index that does not
      exist, or the database could not be opened. */
  datatype DbError = ConstraintError | NotFoundError | OpenFailed

  /** The contents of the database: one key-ordered table per store. */
  datatype Store = Store(products: Table, users: Table, orders: Table, cart: Table, siteSettings: Table)

  /** A freshly created database: the upgrade has made every store, each empty. */
  const EmptyStore: Store := Store([], [], [], [], [])

  function TableOf(db: Store, s: StoreName): Table
  {
    match s
    case Products => db.products
    case Users => db.users
    case Orders => db.orders
    case Cart => db.cart
    case SiteSettings => db.siteSettings
  }

  function WithTable(db: Store, s: StoreName, t: Table): (r: Store)
    ensures TableOf(r, s) == t
    ensures forall s' :: s' != s ==> TableOf(r, s') == TableOf(db, s')
  {
    match s
    case Products => db.(products := t)
    case Users => db.(users := t)
    case Orders => db.(orders := t)
    case Cart => db.(cart := t)
    case SiteSettings => db.(siteSettings := t)
  }

  /** Writing a store's own table back changes nothing. */
  lemma WithTableSame(db: Store, s: StoreName)
    ensures WithTable(db, s, TableOf(db, s)) == db
  {
  }

  /** What IndexedDB guarantees of one store: keys in order, unique indexes respected. */
  predicate TableValid(s: StoreName, t: Table)
  {
    Ordered(t) && UniqueOn(UniquePaths(s), t)
  }

  /** Every store of the database is valid: the invariant all operations keep. */
  predicate Valid(db: Store)
  {
    forall s :: TableValid(s, TableOf(db, s))
  }

  lemma EmptyStoreValid()
    ensures Valid(EmptyStore)
  {
    forall s ensures TableValid(s, TableOf(EmptyStore, s)) {
      assert TableOf(EmptyStore, s) == [];
    }
  }

  /** Replacing one valid table keeps the database valid. */
  lemma WithTableValid(db: Store, s: StoreName, t: Table)
    requires Valid(db) && TableValid(s, t)
    ensures Valid(WithTable(db, s, t))
  {
    var r := WithTable(db, s, t);
    forall s' ensures TableValid(s', TableOf(r, s')) {
      if s' != s { assert TableValid(s', TableOf(db, s')); }
    }
  }

  // ---------------------------------------------------------------------------
  // The generic operations on an open database.
  // ---------------------------------------------------------------------------

  /** `getAll`: every record of the store, in key order, each key once. */
  function GetAll(db: Store, s: StoreName): (r: seq<Record>)
    requires Valid(db)
    ensures Ordered(r)
    ensures forall x :: x in r ==> Get(r, x.Id()) == Some(x)
  {
    var t := TableOf(db, s);
    assert TableValid(s, t);
    forall x | x in t ensures Get(t, x.Id()) == Some(x) { GetFinds(t, x); }
    t
  }

  /** `getById`: the record under `id`, or nothing. */
  function GetById(db: Store, s: StoreName, id: string): (r: Option<Record>)
    requires Valid(db)
    ensures r.Some? ==> r.value in GetAll(db, s) && r.value.Id() == id
    ensures r.None? <==> forall x :: x in GetAll(db, s) ==> x.Id() != id
  {
    Get(GetAll(db, s), id)
  }

  /** `add`: stores a record under a new key; fails with a constraint error when the key is
      taken or a unique index already holds one of its values. */
  function Add(db: Store, s: StoreName, r: Record): (res: Result<Store, DbError>)
    requires Valid(db)
    ensures res.Failure? <==> GetById(db, s, r.Id()).Some? || ClashesWith(UniquePaths(s), GetAll(db, s), r)
    ensures res.Failure? ==> res.error == ConstraintError
    ensures res.Success? ==> Valid(res.value)
  {
    var t := TableOf(db, s);
    assert TableValid(s, t);
    if Get(t, r.Id()).Some? || ClashesWith(UniquePaths(s), t, r) then Failure(ConstraintError)
    else
      InsertKeepsUnique(UniquePaths(s), t, r);
      WithTableValid(db, s, Insert(t, r));
      Success(WithTable(db, s, Insert(t, r)))
  }

  /** `update` (`put`): stores a record, replacing any under the same key; fails with a
      constraint error only when another record holds one of its unique-index values. */
  function Update(db: Store, s: StoreName, r: Record): (res: Result<Store, DbError>)
    requires Valid(db)
    ensures res.Failure? <==> ClashesWith(UniquePaths(s), GetAll(db, s), r)
    ensures res.Failure? ==> res.error == ConstraintError
    ensures res.Success? ==> Valid(res.value)
  {
    var t := TableOf(db, s);
    assert TableValid(s, t);
    if ClashesWith(UniquePaths(s), t, r) then Failure(ConstraintError)
    else
      PutKeepsUnique(UniquePaths(s), t, r);
      WithTableValid(db, s, Put(t, r));
      Success(WithTable(db, s, Put(t, r)))
  }

  /** `delete`: removes the record under `id`; a key not present is no error. */
  function Delete(db: Store, s: StoreName, id: string): (r: Store)
    requires Valid(db)
    ensures Valid(r)
    ensures GetById(r, s, id).None?
  {
    var t := TableOf(db, s);
    assert TableValid(s, t);
    RemoveKeepsUnique(UniquePaths(s), t, id);
    WithTableValid(db, s, Remove(t, id));
    WithTable(db, s, Remove(t, id))
  }

  /** `getByIndex`: the records whose value at the index's key path is `value`, in key order;
      an index the store does not have is a not-found error. */
  function GetByIndex(db: Store, s: StoreName, indexName: string, value: string): (res: Result<seq<Record>, DbError>)
    requires Valid(db)
    ensures res.Failure? <==> forall ix :: ix in Indexes(s) ==> ix.name != indexName
    ensures res.Failure? ==> res.error == NotFoundError
    ensures res.Success? ==> Subsequence(res.value, GetAll(db, s))
    ensures res.Success? ==> forall x ::
      x in res.value <==> (x in GetAll(db, s) && x.Field(FindIndex(s, indexName).value.keyPath) == Some(value))
  {
    match FindIndex(s, indexName)
    case None => Failure(NotFoundError)
    case Some(ix) =>
      var hit := (x: Record) => x.Field(ix.keyPath) == Some(value);
      FilterMembers(GetAll(db, s), hit);
      FilterSubsequence(GetAll(db, s), hit);
      Success(Filter(GetAll(db, s), hit))
  }

  /** `clear`: empties one store and leaves the others alone. */
  function Clear(db: Store, s: StoreName): (r: Store)
    requires Valid(db)
    ensures Valid(r)
    ensures GetAll(r, s) == []
    ensures forall s' :: s' != s ==> GetAll(r, s') == GetAll(db, s')
  {
    assert TableValid(s, []);
    WithTableValid(db, s, []);
    WithTable(db, s, [])
  }

  /** `isEmpty`: `getAll` returned no records; equivalently no key resolves. */
  function IsEmpty(db: Store, s: StoreName): (r: bool)
    requires Valid(db)
    ensures r <==> forall id :: GetById(db, s, id).None?
  {
    var t := GetAll(db, s);
    assert |t| > 0 ==> GetById(db, s, t[0].Id()).Some?;
    |t| == 0
  }

  // ---------------------------------------------------------------------------
  // How each write changes what `getById` and `getAll` see.
  // ---------------------------------------------------------------------------

  /** A successful add makes the new key resolve to the record; every other key, and every
      other store, is unchanged. */
  lemma AddThenGet(db: Store, s: StoreName, r: Record, s': StoreName, id: string)
    requires Valid(db) && Add(db, s, r).Success?
    ensures GetById(Add(db, s, r).value, s', id) ==
      if s' == s && id == r.Id() then Some(r) else GetById(db, s', id)
  {
    if s' == s { GetAfterInsert(TableOf(db, s), r, id); }
  }

  /** A successful add leaves the store holding exactly its old records and the new one, and
      every other store as it was. */
  lemma AddThenGetAll(db: Store, s: StoreName, r: Record)
    requires Valid(db) && Add(db, s, r).Success?
    ensures forall x :: x in GetAll(Add(db, s, r).value, s) <==> x in GetAll(db, s) || x == r
    ensures forall s' :: s' != s ==> GetAll(Add(db, s, r).value, s') == GetAll(db, s')
  {
  }

  /** A successful update makes `r`'s key resolve to `r`; nothing else changes. */
  lemma UpdateThenGet(db: Store, s: StoreName, r: Record, s': StoreName, id: string)
    requires Valid(db) && Update(db, s, r).Success?
    ensures GetById(Update(db, s, r).value, s', id) ==
      if s' == s && id == r.Id() then Some(r) else GetById(db, s', id)
  {
    if s' == s { GetAfterPut(TableOf(db, s), r, id); }
  }

  /** After a delete the key resolves to nothing; nothing else changes. */
  lemma DeleteThenGet(db: Store, s: StoreName, id: string, s': StoreName, other: string)
    requires Valid(db)
    ensures GetById(Delete(db, s, id), s', other) ==
      if s' == s && other == id then None else GetById(db, s', other)
  {
    if s' == s { GetAfterRemove(TableOf(db, s), id, other); }
  }

  /** Deleting a key that is not there leaves the database as it was; so a delete repeated
      changes nothing more. */
  lemma DeleteIdempotent(db: Store, s: StoreName, id: string)
    requires Valid(db)
    ensures GetById(db, s, id).None? ==> Delete(db, s, id) == db
    ensures Delete(Delete(db, s, id), s, id) == Delete(db, s, id)
  {
    var once := Delete(db, s, id);
    RemoveAbsent(TableOf(once, s), id);
    if GetById(db, s, id).None? {
      RemoveAbsent(TableOf(db, s), id);
      WithTableSame(db, s);
    }
    WithTableSame(once, s);
  }

  /** Adding a record under a key already present fails, and so does adding a user whose
      e-mail another user already has. */
  lemma AddDuplicateFails(db: Store, s: StoreName, r: Record, existing: Record)
    requires Valid(db) && existing in GetAll(db, s)
    requires existing.Id() == r.Id() || (s == Users && existing.Field("email").Some? && existing.Field("email") == r.Field("email"))
    ensures Add(db, s, r) == Failure(ConstraintError)
  {
    var t := GetAll(db, s);
    var i :| 0 <= i < |t| && t[i] == existing;
    if existing.Id() != r.Id() {
      assert "email" in UniquePaths(s);
      assert Clash(UniquePaths(s), t[i], r);
    }
  }

  /** A unique index never yields more than one record for a value. */
  lemma UniqueIndexAtMostOne(db: Store, s: StoreName, indexName: string, value: string)
    requires Valid(db)
    requires FindIndex(s, indexName).Some? && FindIndex(s, indexName).value.unique
    ensures |GetByIndex(db, s, indexName, value).value| <= 1
  {
    var rs := GetByIndex(db, s, indexName, value).value;
    var t := GetAll(db, s);
    var path := FindIndex(s, indexName).value.keyPath;
    assert path in UniquePaths(s);
    if |rs| > 1 {
      assert rs[0] in rs && rs[1] in rs;
      assert TableValid(s, TableOf(db, s));
      assert !Clash(UniquePaths(s), rs[0], rs[1]);
      assert rs[0].Id() == rs[1].Id();
      OrderedSubsequence(rs, t);
      assert Keys.Below(rs[0].Id(), rs[1].Id());
      Keys.BelowIrreflexive(rs[0].Id());
    }
  }

  /** A cleared store is empty. */
  lemma ClearThenEmpty(db: Store, s: StoreName)
    requires Valid(db)
    ensures IsEmpty(Clear(db, s), s)
  {
  }
}

=== FILE: i18n.dfy ===
/** The interface language: English or Arabic, remembered in local storage, with Arabic laid
    out right to left. */
module I18n {
  import opened Wrappers

  datatype Language = En | Ar

  /** The language before any saved preference is read. */
  const DefaultLanguage: Language := En

  /** The code a language is saved and announced under. */
  function Code(l: Language): string
  {
    match l
    case En => "en"
    case Ar => "ar"
  }

  /** A saved value counts only when it is exactly one of the two codes. */
  function Parse(saved: string): (r: Option<Language>)
    ensures r.Some? <==> saved == "en" || saved == "ar"
    ensures r.Some? ==> Code(r.value) == saved
  {
    if saved == "en" then Some(En)
    else if saved == "ar" then Some(Ar)
    else None
  }

  lemma ParseCode(l: Language)
    ensures Parse(Code(l)) == Some(l)
  {
  }

  /** The language shown and the content of the storage slot (`None` when never written). */
  datatype Prefs = Prefs(language: Language, saved: Option<string>)

  /** On load: English, replaced by the saved language when the slot holds a valid code;
      anything else in the slot is ignored and left there. */
  function Load(saved: Option<string>): (r: Prefs)
    ensures r.saved == saved
    ensures saved.Some? && Parse(saved.value).Some? ==> r.language == Parse(saved.value).value
    ensures (saved.None? || Parse(saved.value).None?) ==> r.language == DefaultLanguage
  {
    var l := if saved.Some? && Parse(saved.value).Some? then Parse(saved.value).value else DefaultLanguage;
    Prefs(l, saved)
  }

  /** `setLanguage`: shows the language and saves its code. */
  function SetLanguage(p: Prefs, l: Language): (r: Prefs)
    ensures r.language == l
    ensures r.saved.Some? && Parse(r.saved.value) == Some(l)
  {
    Prefs(l, Some(Code(l)))
  }

  function Other(l: Language): (r: Language)
    ensures r != l
  {
    if l == En then Ar else En
  }

  /** `toggleLanguage`: switches to the other language and saves it. */
  function ToggleLanguage(p: Prefs): (r: Prefs)
    ensures r.language != p.language
    ensures r == SetLanguage(p, r.language)
  {
    SetLanguage(p, Other(p.language))
  }

  /** Arabic is written right to left. */
  predicate IsRTL(l: Language)
  {
    l == Ar
  }

  /** What the document is given on every change of language: its direction, its `lang`, and
      whether the `rtl` class is on the body. */
  datatype DocumentAttrs = DocumentAttrs(dir: string, lang: string, rtlClass: bool)

  function DocumentFor(l: Language): (r: DocumentAttrs)
    ensures r.rtlClass <==> IsRTL(l)
    ensures r.dir == (if IsRTL(l) then "rtl" else "ltr")
    ensures Parse(r.lang) == Some(l)
  {
    DocumentAttrs(if IsRTL(l) then "rtl" else "ltr", Code(l), IsRTL(l))
  }

  /** Toggling twice restores the language, and the slot then holds its code. */
  lemma ToggleTwice(p: Prefs)
    ensures ToggleLanguage(ToggleLanguage(p)).language == p.language
    ensures ToggleLanguage(ToggleLanguage(p)).saved == Some(Code(p.language))
  {
  }

  /** Toggling always flips the layout direction. */
  lemma ToggleFlipsDirection(p: Prefs)
    ensures IsRTL(ToggleLanguage(p).language) <==> !IsRTL(p.language)
  {
  }

  /** A reload after choosing a language comes back in that language. */
  lemma ReloadRestores(p: Prefs, l: Language)
    ensures Load(SetLanguage(p, l).saved).language == l
  {
  }
}

=== FILE: keys.dfy ===
/** The order IndexedDB uses on string keys: lexicographic on characters. A Dafny `char` is a
    Unicode code point, so this is code-point order, which agrees with IndexedDB's UTF-16
    code-unit order except between characters outside the Basic Multilingual Plane and those
    in U+E000 to U+FFFF. Object stores keep their records in this order, and `getAll` returns
    them in it. */
module Keys {

  /** `a` sorts strictly before `b`. */
  predicate Below(a: string, b: string)
  {
    if |a| == 0 then |b| > 0
    else if |b| == 0 then false
    else if a[0] != b[0] then a[0] < b[0]
    else Below(a[1..], b[1..])
  }

  lemma {:induction false} BelowIrreflexive(a: string)
    ensures !Below(a, a)
  {
    if |a| > 0 {
      BelowIrreflexive(a[1..]);
    }
  }

  lemma {:induction false} BelowTransitive(a: string, b: string, c: string)
    requires Below(a, b) && Below(b, c)
    ensures Below(a, c)
  {
    if |a| > 0 && |b| > 0 && |c| > 0 && a[0] == b[0] && b[0] == c[0] {
      BelowTransitive(a[1..], b[1..], c[1..]);
    }
  }

  /** Two different keys are ordered one way or the other. */
  lemma {:induction false} BelowTotal(a: string, b: string)
    requires a != b
    ensures Below(a, b) || Below(b, a)
  {
    if |a| > 0 && |b| > 0 && a[0] == b[0] {
      assert a == [a[0]] + a[1..] && b == [b[0]] + b[1..];
      BelowTotal(a[1..], b[1..]);
    }
  }
}

=== FILE: object_store.dfy ===
/** One IndexedDB object store: records kept in primary-key order, at most one per key,
    with optional unique indexes. */
module ObjectStore {
  import opened Wrappers
  import opened Seqs
  import opened Keys
  import opened Records

  /** The records of one object store, in key order. */
  type Table = seq<Record>

  /** Strictly increasing keys: the order `getAll` returns, and no key twice. */
  predicate Ordered(t: Table)
  {
    forall i, j :: 0 <= i < j < |t| ==> Below(t[i].Id(), t[j].Id())
  }

  /** No two records of an ordered table share a key. */
  lemma OrderedDistinct(t: Table, i: int, j: int)
    requires Ordered(t) && 0 <= i < |t| && 0 <= j < |t| && i != j
    ensures t[i].Id() != t[j].Id()
  {
    if i < j {
      if t[i].Id() == t[j].Id() { BelowIrreflexive(t[i].Id()); }
    } else {
      if t[i].Id() == t[j].Id() { BelowIrreflexive(t[j].Id()); }
    }
  }

  /** A subsequence of an ordered table is ordered. */
  lemma {:induction false} OrderedSubsequence(a: Table, b: Table)
    requires Subsequence(a, b) && Ordered(b)
    ensures Ordered(a)
    decreases |b|
  {
    if |a| > 0 {
      if a[0] == b[0] && Subsequence(a[1..], b[1..]) {
        OrderedSubsequence(a[1..], b[1..]);
        SubsequenceMembers(a[1..], b[1..]);
        forall j | 0 < j < |a| ensures Below(a[0].Id(), a[j].Id()) {
          assert a[j] == a[1..][j - 1];
          assert a[j] in a[1..];
          var k :| 0 <= k < |b[1..]| && b[1..][k] == a[j];
          assert b[k + 1] == a[j];
        }
      } else {
        OrderedSubsequence(a, b[1..]);
      }
    }
  }

  /** `store.get(id)`: the record with key `id`, if any. */
  function Get(t: Table, id: string): (r: Option<Record>)
    ensures r.Some? ==> r.value in t && r.value.Id() == id
    ensures r.None? <==> forall i :: 0 <= i < |t| ==> t[i].Id() != id
  {
    if |t| == 0 then None
    else if t[0].Id() == id then Some(t[0])
    else
      assert forall i :: 0 < i < |t| ==> t[i] == t[1..][i - 1];
      Get(t[1..], id)
  }

  /** In an ordered table, `Get` finds each record under its own key. */
  lemma GetFinds(t: Table, x: Record)
    requires Ordered(t) && x in t
    ensures Get(t, x.Id()) == Some(x)
  {
    var i :| 0 <= i < |t| && t[i] == x;
    var y := Get(t, x.Id()).value;
    var j :| 0 <= j < |t| && t[j] == y;
    if i != j { OrderedDistinct(t, i, j); }
  }

  /** Inserting a record under a key the table does not hold, at its place in key order. */
  function Insert(t: Table, r: Record): (u: Table)
    requires Ordered(t) && Get(t, r.Id()).None?
    ensures Ordered(u)
    ensures |u| == |t| + 1
    ensures forall x :: x in u <==> x in t || x == r
  {
    if |t| == 0 then [r]
    else if Below(r.Id(), t[0].Id()) then
      assert forall j :: 0 < j < |t| ==> Below(r.Id(), t[j].Id()) by {
        forall j | 0 < j < |t| ensures Below(r.Id(), t[j].Id()) {
          BelowTransitive(r.Id(), t[0].Id(), t[j].Id());
        }
      }
      assert forall x :: x in [r] + t <==> x in t || x == r;
      [r] + t
    else
      BelowTotal(r.Id(), t[0].Id());
      assert Ordered(t[1..]);
      var rest := Insert(t[1..], r);
      var u := [t[0]] + rest;
      assert forall x :: x in t <==> x == t[0] || x in t[1..] by {
        assert t == [t[0]] + t[1..];
      }
      assert forall j :: 0 < j < |u| ==> Below(t[0].Id(), u[j].Id()) by {
        forall j | 0 < j < |u| ensures Below(t[0].Id(), u[j].Id()) {
          assert u[j] == rest[j - 1];
          assert u[j] in rest;
          if u[j] != r {
            var k :| 0 <= k < |t[1..]| && t[1..][k] == u[j];
            assert t[k + 1] == u[j];
          }
        }
      }
      u
  }

  /** The table with the record under `r`'s key replaced by `r`. */
  function Replace(t: Table, r: Record): (u: Table)
    ensures |u| == |t|
    ensures forall i :: 0 <= i < |t| ==> u[i] == if t[i].Id() == r.Id() then r else t[i]
  {
    seq(|t|, i requires 0 <= i < |t| => if t[i].Id() == r.Id() then r else t[i])
  }

  /** `store.put(r)` without the index check: replace under the same key, or insert. */
  function Put(t: Table, r: Record): (u: Table)
    requires Ordered(t)
    ensures Ordered(u)
  {
    if Get(t, r.Id()).Some? then
      var u := Replace(t, r);
      assert forall i :: 0 <= i < |t| ==> u[i].Id() == t[i].Id();
      u
    else Insert(t, r)
  }

  /** `store.delete(id)`: every record except the one under `id`, order kept. */
  function Remove(t: Table, id: string): (u: Table)
    requires Ordered(t)
    ensures Ordered(u)
    ensures forall x :: x in u <==> x in t && x.Id() != id
  {
    var keep := (x: Record) => x.Id() != id;
    FilterMembers(t, keep);
    FilterSubsequence(t, keep);
    OrderedSubsequence(Filter(t, keep), t);
    Filter(t, keep)
  }

  // ---------------------------------------------------------------------------
  // The table as a map from key to record.
  // ---------------------------------------------------------------------------

  /** After an insert, the new key maps to the new record and every other key is unchanged. */
  lemma GetAfterInsert(t: Table, r: Record, id: string)
    requires Ordered(t) && Get(t, r.Id()).None?
    ensures Get(Insert(t, r), id) == if id == r.Id() then Some(r) else Get(t, id)
  {
    var u := Insert(t, r);
    if id == r.Id() {
      GetFinds(u, r);
    } else if Get(t, id).Some? {
      GetFinds(u, Get(t, id).value);
    }
  }

  /** Replacing the record under an existing key: that key maps to `r`, every other key is
      unchanged. */
  lemma GetAfterReplace(t: Table, r: Record, id: string)
    requires Ordered(t) && Get(t, r.Id()).Some?
    ensures Get(Put(t, r), id) == if id == r.Id() then Some(r) else Get(t, id)
  {
    var u := Put(t, r);
    assert forall x :: x in u ==> x == r || x in t;
    if id == r.Id() {
      var prior := Get(t, r.Id()).value;
      var i :| 0 <= i < |t| && t[i] == prior;
      assert u[i] == r;
      GetFinds(u, r);
    } else if Get(t, id).Some? {
      var x := Get(t, id).value;
      var i :| 0 <= i < |t| && t[i] == x;
      assert u[i] == x;
      GetFinds(u, x);
    }
  }

  /** After a put, `r`'s key maps to `r` and every other key is unchanged. */
  lemma GetAfterPut(t: Table, r: Record, id: string)
    requires Ordered(t)
    ensures Get(Put(t, r), id) == if id == r.Id() then Some(r) else Get(t, id)
  {
    if Get(t, r.Id()).Some? {
      GetAfterReplace(t, r, id);
    } else {
      GetAfterInsert(t, r, id);
    }
  }

  /** After a delete, `id` maps to nothing and every other key is unchanged. */
  lemma GetAfterRemove(t: Table, id: string, other: string)
    requires Ordered(t)
    ensures Get(Remove(t, id), other) == if other == id then None else Get(t, other)
  {
    var u := Remove(t, id);
    if other != id {
      if Get(t, other).Some? {
        GetFinds(u, Get(t, other).value);
      }
    }
  }

  /** Deleting a key the table does not hold changes nothing. */
  lemma RemoveAbsent(t: Table, id: string)
    requires Ordered(t) && Get(t, id).None?
    ensures Remove(t, id) == t
  {
    FilterAll(t, (x: Record) => x.Id() != id);
  }

  // ---------------------------------------------------------------------------
  // Unique indexes.
  // ---------------------------------------------------------------------------

  /** Two records under different keys with the same value on a unique key path. */
  predicate Clash(paths: seq<string>, x: Record, y: Record)
  {
    x.Id() != y.Id() && exists p :: p in paths && x.Field(p).Some? && x.Field(p) == y.Field(p)
  }

  /** Writing `r` would give a unique index a second entry for one value. */
  predicate ClashesWith(paths: seq<string>, t: Table, r: Record)
  {
    exists i :: 0 <= i < |t| && Clash(paths, t[i], r)
  }

  /** Every unique index on `paths` holds each value at most once. */
  predicate UniqueOn(paths: seq<string>, t: Table)
  {
    forall x, y :: x in t && y in t ==> !Clash(paths, x, y)
  }

  lemma InsertKeepsUnique(paths: seq<string>, t: Table, r: Record)
    requires Ordered(t) && Get(t, r.Id()).None? && UniqueOn(paths, t) && !ClashesWith(paths, t, r)
    ensures UniqueOn(paths, Insert(t, r))
  {
    forall x, y | x in Insert(t, r) && y in Insert(t, r) ensures !Clash(paths, x, y) {
      if x == r && y != r {
        var i :| 0 <= i < |t| && t[i] == y;
      } else if y == r && x != r {
        var i :| 0 <= i < |t| && t[i] == x;
        assert !Clash(paths, t[i], r);
      }
    }
  }

  lemma PutKeepsUnique(paths: seq<string>, t: Table, r: Record)
    requires Ordered(t) && UniqueOn(paths, t) && !ClashesWith(paths, t, r)
    ensures UniqueOn(paths, Put(t, r))
  {
    if Get(t, r.Id()).Some? {
      var u := Put(t, r);
      forall x, y | x in u && y in u ensures !Clash(paths, x, y) {
        var i :| 0 <= i < |u| && u[i] == x;
        var j :| 0 <= j < |u| && u[j] == y;
        if x == r && y != r {
          assert y == t[j];
        } else if y == r && x != r {
          assert x == t[i];
          assert !Clash(paths, t[i], r);
        } else if x != r && y != r {
          assert x == t[i] && y == t[j];
        }
      }
    } else {
      InsertKeepsUnique(paths, t, r);
    }
  }

  lemma RemoveKeepsUnique(paths: seq<string>, t: Table, id: string)
    requires Ordered(t) && UniqueOn(paths, t)
    ensures UniqueOn(paths, Remove(t, id))
  {
  }
}

=== FILE: records.dfy ===
/** The records the local store holds, one kind per object store. Types and field names
    follow the storefront's `types` module, which is not part of this model. */
module Records {
  import opened Wrappers
  import opened Catalog
  import opened Cart

  datatype Role = Admin | Customer

  /** The string stored in a user's `role` field. */
  function RoleName(r: Role): string
  {
    match r
    case Admin => "admin"
    case Customer => "customer"
  }

  /** A storefront account. The password is kept and compared in plain text. */
  datatype User = User(
    id: string,
    email: string,
    password: string,
    name: string,
    role: Role,
    avatar: Option<string>,
    createdAt: string)

  datatype OrderStatus = Pending | Processing | Shipped | Delivered

  function StatusName(s: OrderStatus): string
  {
    match s
    case Pending => "pending"
    case Processing => "processing"
    case Shipped => "shipped"
    case Delivered => "delivered"
  }

  /** A placed order; amounts in cents. */
  datatype Order = Order(
    id: string,
    userId: string,
    items: seq<CartItem>,
    subtotal: int,
    tax: int,
    shipping: int,
    total: int,
    status: OrderStatus,
    createdAt: string,
    updatedAt: string)

  /** A cart saved in the `cart` object store, one per user. */
  datatype SavedCart = SavedCart(id: string, items: seq<CartItem>, userId: string)

  /** The store-wide settings singleton; amounts in cents. */
  datatype SiteSettings = SiteSettings(
    id: string,
    siteName: string,
    siteDescription: string,
    logo: string,
    favicon: string,
    primaryColor: string,
    darkMode: bool,
    enableRegistration: bool,
    enableCart: bool,
    enableReviews: bool,
    currency: string,
    currencySymbol: string,
    taxRate: int,
    shippingFee: int,
    freeShippingThreshold: int,
    contactEmail: string,
    contactPhone: string,
    updatedAt: string)

  /** Any record of any object store. */
  datatype Record =
    | ProductRecord(product: Product)
    | UserRecord(user: User)
    | OrderRecord(order: Order)
    | CartRecord(cart: SavedCart)
    | SettingsRecord(settings: SiteSettings)
  {
    /** The primary key: every store uses the key path `id`. */
    function Id(): string
    {
      match this
      case ProductRecord(p) => p.id
      case UserRecord(u) => u.id
      case OrderRecord(o) => o.id
      case CartRecord(c) => c.id
      case SettingsRecord(s) => s.id
    }

    /** The value at key path `path`, for the string-valued paths the indexes use; `None`
        when the record has no such field (and so is absent from an index on it). */
    function Field(path: string): Option<string>
    {
      match this
      case ProductRecord(p) =>
        if path == "category" then Some(p.category)
        else if path == "name" then Some(p.name)
        else None
      case UserRecord(u) =>
        if path == "email" then Some(u.email)
        else if path == "role" then Some(RoleName(u.role))
        else None
      case OrderRecord(o) =>
        if path == "userId" then Some(o.userId)
        else if path == "status" then Some(StatusName(o.status))
        else None
      case CartRecord(c) =>
        if path == "userId" then Some(c.userId) else None
      case SettingsRecord(_) => None
    }
  }
}

=== FILE: seed.dfy ===
/** First-run seeding of the database with the default accounts, the product catalog and the
    site settings, and the reset that wipes everything and seeds again. */
module Seed {
  import opened Wrappers
  import opened Catalog
  import opened Records
  import opened ObjectStore
  import Database

  // ---------------------------------------------------------------------------
  // The default records. `now` is the clock reading taken once, when the page loads the
  // module: the defaults are module-level values, so the first seeding and every later reset
  // in that page write the very same records.
  // ---------------------------------------------------------------------------

  function DefaultAdmin(now: string): User
  {
    User("admin-001", "admin@auracode.studio", "admin123", "System Administrator", Admin, None, now)
  }

  function SecondaryAdmin(now: string): User
  {
    User("admin-002", "manager@auracode.studio", "manager2024", "Store Manager", Admin, None, now)
  }

  function DemoCustomer(now: string): User
  {
    User("customer-001", "customer@example.com", "customer123", "John Doe", Customer, None, now)
  }

  /** The site settings singleton; the free-shipping threshold of 100 dollars in cents. */
  function DefaultSiteSettings(now: string): SiteSettings
  {
    SiteSettings("settings-001", "AuraCode Studio",
      "Premium programming tools, courses, and hosting services for developers",
      "/logo.png", "/favicon.ico", "#9BFF1E", true, true, true, true, "USD", "$",
      0, 0, 10000, "hello@auracode.studio", "+1 (555) 123-4567", now)
  }

  /** Products as records of the products store, all stamped `now`. */
  function ProductRecords(ps: seq<Product>, now: string): (r: seq<Record>)
    ensures |r| == |ps|
    ensures forall i :: 0 <= i < |ps| ==> r[i] == ProductRecord(Stamp(ps[i], now, now))
  {
    seq(|ps|, i requires 0 <= i < |ps| => ProductRecord(Stamp(ps[i], now, now)))
  }

  /** What seeding writes, store by store. */
  datatype Defaults = Defaults(users: seq<Record>, products: seq<Record>, settings: seq<Record>)

  function DefaultsAt(now: string): Defaults
  {
    Defaults(
      [UserRecord(DefaultAdmin(now)), UserRecord(SecondaryAdmin(now)), UserRecord(DemoCustomer(now))],
      ProductRecords(BaseCatalog, now),
      [SettingsRecord(DefaultSiteSettings(now))])
  }

  // ---------------------------------------------------------------------------
  // Adding a list of records, one request each.
  // ---------------------------------------------------------------------------

  /** Records that can all be added to one store: distinct keys and no two sharing a value of a
      unique index. */
  predicate Compatible(paths: seq<string>, rs: seq<Record>)
  {
    forall i, j :: 0 <= i < j < |rs| ==> rs[i].Id() != rs[j].Id() && !Clash(paths, rs[i], rs[j])
  }

  /** Adds the records in order; the first rejected add stops the sequence, and the records
      added before it stay (each add is its own transaction). */
  function AddAll(db: Database.Store, s: Database.StoreName, rs: seq<Record>): (r: (Database.Store, Option<Database.DbError>))
    requires Database.Valid(db)
    ensures Database.Valid(r.0)
    decreases |rs|
  {
    if |rs| == 0 then (db, None)
    else
      match Database.Add(db, s, rs[0])
      case Failure(e) => (db, Some(e))
      case Success(db') => AddAll(db', s, rs[1..])
  }

  /** None of the records' keys is in the store, and none clashes with a stored record. */
  predicate FreshFor(db: Database.Store, s: Database.StoreName, rs: seq<Record>)
    requires Database.Valid(db)
  {
    forall k :: 0 <= k < |rs| ==>
      Database.GetById(db, s, rs[k].Id()).None? && !ClashesWith(Database.UniquePaths(s), Database.GetAll(db, s), rs[k])
  }

  /** Records with fresh keys, compatible with the store and with each other, are all added:
      no error, and the store then holds its old records and these. */
  lemma {:induction false} AddAllFresh(db: Database.Store, s: Database.StoreName, rs: seq<Record>)
    requires Database.Valid(db) && FreshFor(db, s, rs) && Compatible(Database.UniquePaths(s), rs)
    ensures AddAll(db, s, rs).1 == None
    ensures forall x :: x in Database.GetAll(AddAll(db, s, rs).0, s) <==> x in Database.GetAll(db, s) || x in rs
    decreases |rs|
  {
    if |rs| > 0 {
      AddFirstKeepsFresh(db, s, rs);
      var db' := Database.Add(db, s, rs[0]).value;
      assert AddAll(db, s, rs) == AddAll(db', s, rs[1..]);
      CompatibleTail(Database.UniquePaths(s), rs);
      AddAllFresh(db', s, rs[1..]);
      Database.AddThenGetAll(db, s, rs[0]);
      MembersStep(Database.GetAll(AddAll(db', s, rs[1..]).0, s), Database.GetAll(db', s), Database.GetAll(db, s), rs);
    }
  }

  /** Adding the head and then the tail of a list adds the list. */
  lemma MembersStep(after: seq<Record>, mid: seq<Record>, before: seq<Record>, rs: seq<Record>)
    requires |rs| > 0
    requires forall x :: x in after <==> x in mid || x in rs[1..]
    requires forall x :: x in mid <==> x in before || x == rs[0]
    ensures forall x :: x in after <==> x in before || x in rs
  {
    assert rs == [rs[0]] + rs[1..];
  }

  /** Adding records to one store leaves the other stores alone, whatever the outcome. */
  lemma {:induction false} AddAllFrame(db: Database.Store, s: Database.StoreName, rs: seq<Record>, other: Database.StoreName)
    requires Database.Valid(db) && other != s
    ensures Database.GetAll(AddAll(db, s, rs).0, other) == Database.GetAll(db, other)
    decreases |rs|
  {
    if |rs| > 0 && Database.Add(db, s, rs[0]).Success? {
      Database.AddThenGetAll(db, s, rs[0]);
      AddAllFrame(Database.Add(db, s, rs[0]).value, s, rs[1..], other);
    }
  }

  /** Once the first record is added, the rest are still fresh. */
  lemma AddFirstKeepsFresh(db: Database.Store, s: Database.StoreName, rs: seq<Record>)
    requires Database.Valid(db) && FreshFor(db, s, rs) && Compatible(Database.UniquePaths(s), rs) && |rs| > 0
    ensures Database.Add(db, s, rs[0]).Success?
    ensures FreshFor(Database.Add(db, s, rs[0]).value, s, rs[1..])
  {
    var paths := Database.UniquePaths(s);
    var rest := rs[1..];
    forall k | 0 <= k < |rest|
      ensures Database.GetById(Database.Add(db, s, rs[0]).value, s, rest[k].Id()).None?
      ensures !ClashesWith(paths, Database.GetAll(Database.Add(db, s, rs[0]).value, s), rest[k])
    {
      assert rest[k] == rs[k + 1];
      assert rs[0].Id() != rs[k + 1].Id() && !Clash(paths, rs[0], rs[k + 1]);
      AddKeepsFresh(db, s, rs[0], rest[k]);
    }
  }

  /** After adding `first`, a record with another key that does not clash with `first` is still
      fresh and clash-free. */
  lemma AddKeepsFresh(db: Database.Store, s: Database.StoreName, first: Record, r: Record)
    requires Database.Valid(db) && Database.Add(db, s, first).Success?
    requires r.Id() != first.Id() && !Clash(Database.UniquePaths(s), first, r)
    requires Database.GetById(db, s, r.Id()).None? && !ClashesWith(Database.UniquePaths(s), Database.GetAll(db, s), r)
    ensures Database.GetById(Database.Add(db, s, first).value, s, r.Id()).None?
    ensures !ClashesWith(Database.UniquePaths(s), Database.GetAll(Database.Add(db, s, first).value, s), r)
  {
    Database.AddThenGetAll(db, s, first);
    Database.AddThenGet(db, s, first, s, r.Id());
  }

  lemma CompatibleTail(paths: seq<string>, rs: seq<Record>)
    requires Compatible(paths, rs) && |rs| > 0
    ensures Compatible(paths, rs[1..])
  {
    var rest := rs[1..];
    forall i, j | 0 <= i < j < |rest| ensures rest[i].Id() != rest[j].Id() && !Clash(paths, rest[i], rest[j]) {
      assert rest[i] == rs[i + 1] && rest[j] == rs[j + 1];
    }
  }

  // ---------------------------------------------------------------------------
  // seedDatabase and resetDatabase.
  // ---------------------------------------------------------------------------

  /** Seeds one store only when it is empty; a store already holding records is left alone. */
  function SeedStore(db: Database.Store, s: Database.StoreName, rs: seq<Record>): (r: (Database.Store, Option<Database.DbError>))
    requires Database.Valid(db)
    ensures Database.Valid(r.0)
    ensures !Database.IsEmpty(db, s) ==> r == (db, None)
  {
    if Database.IsEmpty(db, s) then AddAll(db, s, rs) else (db, None)
  }

  /** Seeds users, then products, then settings; the first error stops the rest, and what was
      written before it stays. */
  function SeedWith(db: Database.Store, d: Defaults): (r: (Database.Store, Option<Database.DbError>))
    requires Database.Valid(db)
    ensures Database.Valid(r.0)
  {
    var (db1, e1) := SeedStore(db, Database.Users, d.users);
    if e1.Some? then (db1, e1)
    else
      var (db2, e2) := SeedStore(db1, Database.Products, d.products);
      if e2.Some? then (db2, e2)
      else SeedStore(db2, Database.SiteSettings, d.settings)
  }

  /** `seedDatabase`, once the database is open; `now` is the page's load-time stamp. */
  function SeedDatabase(db: Database.Store, now: string): (r: (Database.Store, Option<Database.DbError>))
    requires Database.Valid(db)
    ensures Database.Valid(r.0)
    ensures r.1 == None
  {
    DefaultsWellFormed(now);
    SeedWithFacts(db, DefaultsAt(now));
    SeedWith(db, DefaultsAt(now))
  }

  /** Empties all five stores, in the source's order. */
  function ClearAll(db: Database.Store): (r: Database.Store)
    requires Database.Valid(db)
    ensures Database.Valid(r)
    ensures forall s :: Database.GetAll(r, s) == []
  {
    var db1 := Database.Clear(db, Database.Users);
    var db2 := Database.Clear(db1, Database.Products);
    var db3 := Database.Clear(db2, Database.Orders);
    var db4 := Database.Clear(db3, Database.Cart);
    Database.Clear(db4, Database.SiteSettings)
  }

  /** `resetDatabase`: clear every store, then seed with the same load-time defaults. */
  function ResetDatabase(db: Database.Store, now: string): (r: (Database.Store, Option<Database.DbError>))
    requires Database.Valid(db)
    ensures Database.Valid(r.0)
    ensures r.1 == None
  {
    SeedDatabase(ClearAll(db), now)
  }

  // ---------------------------------------------------------------------------
  // Properties of seeding.
  // ---------------------------------------------------------------------------

  /** Defaults seeding can always write: each list non-empty and compatible with its store. */
  predicate WellFormed(d: Defaults)
  {
    |d.users| > 0 && |d.products| > 0 && |d.settings| > 0 &&
    Compatible(Database.UniquePaths(Database.Users), d.users) &&
    Compatible(Database.UniquePaths(Database.Products), d.products) &&
    Compatible(Database.UniquePaths(Database.SiteSettings), d.settings)
  }

  /** Seeding one store: never an error; an empty store ends up holding exactly the given
      records, a non-empty one is untouched. */
  lemma SeedStoreFacts(db: Database.Store, s: Database.StoreName, rs: seq<Record>)
    requires Database.Valid(db) && Compatible(Database.UniquePaths(s), rs)
    ensures SeedStore(db, s, rs).1 == None
    ensures Database.GetAll(db, s) == [] ==>
      forall x :: x in Database.GetAll(SeedStore(db, s, rs).0, s) <==> x in rs
    ensures Database.GetAll(db, s) != [] ==> SeedStore(db, s, rs).0 == db
  {
    if Database.IsEmpty(db, s) {
      assert Database.GetAll(db, s) == [];
      AddAllFresh(db, s, rs);
    }
  }

  /** Seeding one store leaves the other stores alone. */
  lemma SeedStoreFrame(db: Database.Store, s: Database.StoreName, rs: seq<Record>, other: Database.StoreName)
    requires Database.Valid(db) && Compatible(Database.UniquePaths(s), rs) && other != s
    ensures Database.GetAll(SeedStore(db, s, rs).0, other) == Database.GetAll(db, other)
  {
    if Database.IsEmpty(db, s) {
      AddAllFrame(db, s, rs, other);
    }
  }

  /** After seeding, each of users, products and settings holds exactly the defaults if it was
      empty; nothing fails. */
  lemma SeedWithFacts(db: Database.Store, d: Defaults)
    requires Database.Valid(db) && WellFormed(d)
    ensures SeedWith(db, d).1 == None
    ensures Database.GetAll(db, Database.Users) == [] ==>
      forall x :: x in Database.GetAll(SeedWith(db, d).0, Database.Users) <==> x in d.users
    ensures Database.GetAll(db, Database.Products) == [] ==>
      forall x :: x in Database.GetAll(SeedWith(db, d).0, Database.Products) <==> x in d.products
    ensures Database.GetAll(db, Database.SiteSettings) == [] ==>
      forall x :: x in Database.GetAll(SeedWith(db, d).0, Database.SiteSettings) <==> x in d.settings
  {
    var db1 := SeedStore(db, Database.Users, d.users).0;
    SeedStoreFacts(db, Database.Users, d.users);
    SeedStoreFrame(db, Database.Users, d.users, Database.Products);
    SeedStoreFrame(db, Database.Users, d.users, Database.SiteSettings);
    var db2 := SeedStore(db1, Database.Products, d.products).0;
    SeedStoreFacts(db1, Database.Products, d.products);
    SeedStoreFrame(db1, Database.Products, d.products, Database.Users);
    SeedStoreFrame(db1, Database.Products, d.products, Database.SiteSettings);
    SeedStoreFacts(db2, Database.SiteSettings, d.settings);
    SeedStoreFrame(db2, Database.SiteSettings, d.settings, Database.Users);
    SeedStoreFrame(db2, Database.SiteSettings, d.settings, Database.Products);
  }

  /** Seeding leaves every store that already held records as it was, and never touches orders
      or saved carts. */
  lemma SeedWithUntouched(db: Database.Store, d: Defaults, s: Database.StoreName)
    requires Database.Valid(db) && WellFormed(d)
    requires Database.GetAll(db, s) != [] || s == Database.Orders || s == Database.Cart
    ensures Database.GetAll(SeedWith(db, d).0, s) == Database.GetAll(db, s)
  {
    var db1 := SeedStore(db, Database.Users, d.users).0;
    SeedStoreFacts(db, Database.Users, d.users);
    var db2 := SeedStore(db1, Database.Products, d.products).0;
    SeedStoreFacts(db1, Database.Products, d.products);
    SeedStoreFacts(db2, Database.SiteSettings, d.settings);
    if s != Database.Users {
      SeedStoreFrame(db, Database.Users, d.users, s);
    }
    if s != Database.Products {
      SeedStoreFrame(db1, Database.Products, d.products, s);
    }
    if s != Database.SiteSettings {
      SeedStoreFrame(db2, Database.SiteSettings, d.settings, s);
    }
  }

  /** Seeding twice is seeding once: afterwards no seeded store is empty, so the second run
      writes nothing. */
  lemma SeedWithIdempotent(db: Database.Store, d: Defaults, again: Defaults)
    requires Database.Valid(db) && WellFormed(d)
    ensures SeedWith(SeedWith(db, d).0, again) == (SeedWith(db, d).0, None)
  {
    SeedWithFacts(db, d);
    var db' := SeedWith(db, d).0;
    NotEmptyAfterSeeding(db, d, Database.Users, d.users);
    NotEmptyAfterSeeding(db, d, Database.Products, d.products);
    NotEmptyAfterSeeding(db, d, Database.SiteSettings, d.settings);
  }

  /** A store seeding fills is non-empty afterwards, whether or not it was empty before. */
  lemma NotEmptyAfterSeeding(db: Database.Store, d: Defaults, s: Database.StoreName, rs: seq<Record>)
    requires Database.Valid(db) && WellFormed(d)
    requires (s == Database.Users && rs == d.users) || (s == Database.Products && rs == d.products) ||
             (s == Database.SiteSettings && rs == d.settings)
    ensures !Database.IsEmpty(SeedWith(db, d).0, s)
  {
    var db' := SeedWith(db, d).0;
    if Database.GetAll(db, s) == [] {
      SeedWithFacts(db, d);
      assert rs[0] in rs;
      assert rs[0] in Database.GetAll(db', s);
    } else {
      SeedWithUntouched(db, d, s);
    }
  }

  /** The three default users have distinct ids and distinct e-mails. */
  lemma DefaultUsersCompatible(now: string)
    ensures Compatible(["email"], DefaultsAt(now).users)
  {
  }

  /** The catalog products have distinct ids. */
  lemma InitialProductsCompatible(now: string)
    ensures Compatible([], ProductRecords(BaseCatalog, now))
  {
    var rs := ProductRecords(BaseCatalog, now);
    CatalogIdsDistinct();
    forall i, j | 0 <= i < j < |rs| ensures rs[i].Id() != rs[j].Id() && !Clash([], rs[i], rs[j]) {
      assert rs[i].Id() == BaseCatalog[i].id && rs[j].Id() == BaseCatalog[j].id;
    }
  }

  /** Seeding writes fourteen products, keyed `prod-1` to `prod-14` in catalog order. */
  lemma InitialProductIds(now: string)
    ensures |ProductRecords(BaseCatalog, now)| == 14
    ensures forall i :: 0 <= i < 14 ==> ProductRecords(BaseCatalog, now)[i].Id() == CatalogIds[i]
  {
    BaseCatalogIds();
    assert |Ids(BaseCatalog)| == |BaseCatalog|;
  }

  /** The defaults seeding writes are well formed. */
  lemma DefaultsWellFormed(now: string)
    ensures WellFormed(DefaultsAt(now))
  {
    DefaultUsersCompatible(now);
    InitialProductsCompatible(now);
  }

  /** `seedDatabase` never fails on an open database, and a second call changes nothing. */
  lemma SeedDatabaseSucceedsOnce(db: Database.Store, now: string, later: string)
    requires Database.Valid(db)
    ensures SeedDatabase(db, now).1 == None
    ensures SeedDatabase(SeedDatabase(db, now).0, later) == (SeedDatabase(db, now).0, None)
  {
    DefaultsWellFormed(now);
    SeedWithFacts(db, DefaultsAt(now));
    SeedWithIdempotent(db, DefaultsAt(now), DefaultsAt(later));
  }

  /** `resetDatabase` forgets everything: it is the seeding of a brand-new database with the
      page's defaults, whatever the database held before. */
  lemma ResetIgnoresPriorState(db: Database.Store, now: string)
    requires Database.Valid(db)
    ensures Database.Valid(Database.EmptyStore)
    ensures ResetDatabase(db, now) == SeedDatabase(Database.EmptyStore, now)
  {
    Database.EmptyStoreValid();
    var c := ClearAll(db);
    assert Database.GetAll(c, Database.Products) == [] && Database.GetAll(c, Database.Users) == [];
    assert Database.GetAll(c, Database.Orders) == [] && Database.GetAll(c, Database.Cart) == [];
    assert Database.GetAll(c, Database.SiteSettings) == [];
    assert c == Database.EmptyStore;
  }

  /** A key-ordered table holding exactly one record is that record alone. */
  lemma OnlyRecord(t: Table, r: Record)
    requires Ordered(t) && forall x :: x in t <==> x == r
    ensures t == [r]
  {
    assert r in t;
    if |t| > 1 {
      assert t[0] in t && t[1] in t;
      Keys.BelowIrreflexive(r.Id());
    }
  }

  /** Seeding a database with every store empty writes exactly the defaults. */
  lemma SeedEmpty(db: Database.Store, d: Defaults)
    requires Database.Valid(db) && WellFormed(d) && |d.settings| == 1
    requires forall s :: Database.GetAll(db, s) == []
    ensures SeedWith(db, d).1 == None
    ensures forall x :: x in Database.GetAll(SeedWith(db, d).0, Database.Users) <==> x in d.users
    ensures forall x :: x in Database.GetAll(SeedWith(db, d).0, Database.Products) <==> x in d.products
    ensures Database.GetAll(SeedWith(db, d).0, Database.SiteSettings) == d.settings
    ensures Database.GetAll(SeedWith(db, d).0, Database.Orders) == []
    ensures Database.GetAll(SeedWith(db, d).0, Database.Cart) == []
  {
    assert Database.GetAll(db, Database.Users) == [] && Database.GetAll(db, Database.Products) == [];
    assert Database.GetAll(db, Database.SiteSettings) == [];
    SeedWithFacts(db, d);
    SeedWithUntouched(db, d, Database.Orders);
    SeedWithUntouched(db, d, Database.Cart);
    var t := Database.GetAll(SeedWith(db, d).0, Database.SiteSettings);
    assert forall x :: x in t <==> x == d.settings[0];
    OnlyRecord(t, d.settings[0]);
  }

  /** After a reset: the three default users, the whole catalog, one settings record, and no
      orders or saved carts. */
  lemma ResetContents(db: Database.Store, now: string)
    requires Database.Valid(db)
    ensures ResetDatabase(db, now).1 == None
    ensures forall x :: x in Database.GetAll(ResetDatabase(db, now).0, Database.Users) <==> x in DefaultsAt(now).users
    ensures forall x :: x in Database.GetAll(ResetDatabase(db, now).0, Database.Products) <==> x in ProductRecords(BaseCatalog, now)
    ensures Database.GetAll(ResetDatabase(db, now).0, Database.SiteSettings) == [SettingsRecord(DefaultSiteSettings(now))]
    ensures Database.GetAll(ResetDatabase(db, now).0, Database.Orders) == []
    ensures Database.GetAll(ResetDatabase(db, now).0, Database.Cart) == []
  {
    DefaultsWellFormed(now);
    SeedEmpty(ClearAll(db), DefaultsAt(now));
  }

  /** Within one page load every reset writes the same database, whatever was done in between;
      and it is the database the first seeding of an empty database produced. */
  lemma ResetAlwaysSame(before: Database.Store, after: Database.Store, now: string)
    requires Database.Valid(before) && Database.Valid(after)
    ensures ResetDatabase(before, now) == ResetDatabase(after, now)
    ensures Database.Valid(Database.EmptyStore)
    ensures ResetDatabase(after, now) == SeedDatabase(Database.EmptyStore, now)
  {
    ResetIgnoresPriorState(before, now);
    ResetIgnoresPriorState(after, now);
  }
}

=== FILE: seqs.dfy ===
/** `Array.prototype.filter` and the order-preserving subsequence relation it produces. */
module Seqs {

  /** `a` can be obtained from `b` by deleting elements, keeping the rest in order. */
  predicate Subsequence<T(==)>(a: seq<T>, b: seq<T>)
    decreases |b|
  {
    if |a| == 0 then true
    else if |b| == 0 then false
    else (a[0] == b[0] && Subsequence(a[1..], b[1..])) || Subsequence(a, b[1..])
  }

  /** `xs.filter(p)`: the elements of `xs` satisfying `p`, in their original order. */
  function Filter<T(==,!new)>(xs: seq<T>, p: T -> bool): (r: seq<T>)
    ensures |r| <= |xs|
  {
    if |xs| == 0 then []
    else if p(xs[0]) then [xs[0]] + Filter(xs[1..], p)
    else Filter(xs[1..], p)
  }

  /** The filter keeps exactly the elements satisfying the predicate. */
  lemma {:induction false} FilterMembers<T(!new)>(xs: seq<T>, p: T -> bool)
    ensures forall x :: x in Filter(xs, p) <==> x in xs && p(x)
  {
    if |xs| > 0 {
      FilterMembers(xs[1..], p);
      assert xs == [xs[0]] + xs[1..];
    }
  }

  /** The filter keeps every satisfying element as often as it occurs, and no other. */
  lemma {:induction false} FilterCounts<T(!new)>(xs: seq<T>, p: T -> bool)
    ensures forall x :: multiset(Filter(xs, p))[x] == if p(x) then multiset(xs)[x] else 0
  {
    if |xs| > 0 {
      FilterCounts(xs[1..], p);
      assert xs == [xs[0]] + xs[1..];
    }
  }

  /** The filter keeps the surviving elements in their original order. */
  lemma {:induction false} FilterSubsequence<T(!new)>(xs: seq<T>, p: T -> bool)
    ensures Subsequence(Filter(xs, p), xs)
  {
    if |xs| > 0 {
      FilterSubsequence(xs[1..], p);
      var r := Filter(xs[1..], p);
      if p(xs[0]) {
        assert ([xs[0]] + r)[1..] == r;
      } else {
        if |r| > 0 {
          assert Subsequence(r, xs[1..]);
        }
      }
    }
  }

  /** Filtering with a predicate every element satisfies returns the sequence unchanged. */
  lemma {:induction false} FilterAll<T(!new)>(xs: seq<T>, p: T -> bool)
    requires forall i :: 0 <= i < |xs| ==> p(xs[i])
    ensures Filter(xs, p) == xs
  {
    if |xs| > 0 {
      FilterAll(xs[1..], p);
    }
  }

  /** Filtering depends only on the predicate's values on the sequence's elements. */
  lemma {:induction false} FilterCongruent<T(!new)>(xs: seq<T>, p: T -> bool, q: T -> bool)
    requires forall x :: x in xs ==> (p(x) <==> q(x))
    ensures Filter(xs, p) == Filter(xs, q)
  {
    if |xs| > 0 {
      FilterCongruent(xs[1..], p, q);
    }
  }

  /** The position-by-position reading of `Subsequence`: every element of `a` is an element of `b`. */
  lemma {:induction false} SubsequenceMembers<T>(a: seq<T>, b: seq<T>)
    requires Subsequence(a, b)
    ensures forall x :: x in a ==> x in b
    decreases |b|
  {
    if |a| > 0 {
      assert |b| > 0;
      if a[0] == b[0] && Subsequence(a[1..], b[1..]) {
        SubsequenceMembers(a[1..], b[1..]);
        assert a == [a[0]] + a[1..];
      } else {
        SubsequenceMembers(a, b[1..]);
      }
    }
  }

  /** Taking a prefix yields a subsequence. */
  lemma {:induction false} PrefixIsSubsequence<T>(xs: seq<T>, n: nat)
    requires n <= |xs|
    ensures Subsequence(xs[..n], xs)
  {
    if n > 0 {
      PrefixIsSubsequence(xs[1..], n - 1);
      assert xs[..n][1..] == xs[1..][..n - 1];
    } else {
      assert |xs[..n]| == 0;
    }
  }

  /** A subsequence of a subsequence is a subsequence. */
  lemma {:induction false} SubsequenceTransitive<T>(a: seq<T>, b: seq<T>, c: seq<T>)
    requires Subsequence(a, b) && Subsequence(b, c)
    ensures Subsequence(a, c)
    decreases |c|
  {
    if |a| > 0 {
      assert |b| > 0 && |c| > 0;
      if b[0] == c[0] && Subsequence(b[1..], c[1..]) {
        if a[0] == b[0] && Subsequence(a[1..], b[1..]) {
          SubsequenceTransitive(a[1..], b[1..], c[1..]);
        } else {
          SubsequenceTransitive(a, b[1..], c[1..]);
        }
      } else {
        SubsequenceTransitive(a, b, c[1..]);
      }
    }
  }

  /** Filtering out exactly one position leaves the rest in order. */
  lemma {:induction false} FilterDropOne<T(!new)>(xs: seq<T>, k: nat, p: T -> bool)
    requires k < |xs| && !p(xs[k])
    requires forall i :: 0 <= i < |xs| && i != k ==> p(xs[i])
    ensures Filter(xs, p) == xs[..k] + xs[k + 1..]
  {
    var tail := xs[1..];
    assert forall i :: 0 <= i < |tail| ==> tail[i] == xs[i + 1];
    if k == 0 {
      FilterAll(tail, p);
    } else {
      FilterDropOne(tail, k - 1, p);
      assert xs[..k] == [xs[0]] + tail[..k - 1];
      assert xs[k + 1..] == tail[k..];
    }
  }
}

=== FILE: text.dfy ===
/** String helpers the storefront uses for case-insensitive matching and id generation. */
module Text {

  /** ASCII lower-casing of one character (`String.prototype.toLowerCase` restricted to ASCII). */
  function LowerChar(c: char): char
  {
    if 'A' <= c <= 'Z' then (c as int + 32) as char else c
  }

  /** ASCII lower-casing of a string, character by character. */
  function Lower(s: string): (r: string)
    ensures |r| == |s|
    ensures forall i :: 0 <= i < |s| ==> r[i] == LowerChar(s[i])
  {
    if |s| == 0 then [] else [LowerChar(s[0])] + Lower(s[1..])
  }

  /** Lower-casing is idempotent: a lower-cased string lower-cases to itself. */
  lemma LowerIdempotent(s: string)
    ensures Lower(Lower(s)) == Lower(s)
  {
    var l := Lower(s);
    assert forall i :: 0 <= i < |l| ==> LowerChar(l[i]) == l[i];
  }

  /** `needle` occurs in `hay` at position `i`. */
  ghost predicate OccursAt(hay: string, needle: string, i: int)
  {
    0 <= i && i + |needle| <= |hay| && hay[i..i + |needle|] == needle
  }

  /** `needle` is a prefix of `hay`. */
  predicate StartsWith(hay: string, needle: string)
  {
    |needle| <= |hay| && hay[..|needle|] == needle
  }

  /** `String.prototype.includes`: some position of `hay` starts an occurrence of `needle`. */
  function Contains(hay: string, needle: string): (r: bool)
    ensures r <==> exists i :: OccursAt(hay, needle, i)
    decreases |hay|
  {
    if StartsWith(hay, needle) then
      assert OccursAt(hay, needle, 0);
      true
    else if |hay| == 0 then
      assert forall i :: !OccursAt(hay, needle, i);
      false
    else
      var rest := Contains(hay[1..], needle);
      assert forall i :: OccursAt(hay[1..], needle, i) <==> OccursAt(hay, needle, i + 1) by {
        forall i ensures OccursAt(hay[1..], needle, i) <==> OccursAt(hay, needle, i + 1) {
          if 0 <= i && i + |needle| <= |hay[1..]| {
            assert hay[1..][i..i + |needle|] == hay[i + 1..i + 1 + |needle|];
          }
        }
      }
      assert !OccursAt(hay, needle, 0);
      assert forall i :: OccursAt(hay, needle, i) ==> i >= 1 && OccursAt(hay[1..], needle, i - 1);
      rest
  }

  /** The empty string is contained in every string, so an empty search matches everything. */
  lemma ContainsEmpty(hay: string)
    ensures Contains(hay, "")
  {
  }

  /** Decimal digits of a natural number, as `String(n)` prints it. */
  function NatToString(n: nat): (r: string)
    ensures |r| >= 1
    ensures forall i :: 0 <= i < |r| ==> '0' <= r[i] <= '9'
    decreases n
  {
    var d := ['0' + (n % 10) as char];
    if n < 10 then d else NatToString(n / 10) + d
  }
}

=== FILE: wrappers.dfy ===
/** Failure-carrying datatypes shared by every module of the storefront model. */
module Wrappers {

  /** A value that may be absent: JavaScript's `null` / `undefined`. */
  datatype Option<+T> = None | Some(value: T)

  /** The outcome of an operation that either succeeds or rejects with an error. */
  datatype Result<+R, +E> = Success(value: R) | Failure(error: E)
}
